=== FILE: README.md ===
# ai-peer-review, modelled in Dafny

ai-peer-review is a pair of command-line scripts run from a CI pipeline after a commit:

- The **generator** (`review.ts`) reads `diff.patch`, trims it and sends it to a
  chat-completions API with a fixed system prompt. The reply must hold a review report in
  a fixed JSON shape. The generator normalises that report and writes it to
  `ai-report.json`.
- The **publisher** (`comment.ts`) authenticates as a GitHub App. It signs a JSON Web
  Token and exchanges it for an installation token. It then reads the report and posts one
  commit comment per issue: an inline comment when the issue names a file and a positive
  line, a commit-level comment otherwise. Each script ends with a documented exit status.

The model has one module per source unit:

| module | file | models |
|---|---|---|
| `Env` | env.dfy | `required` and `optional` over an explicit environment map |
| `Report` | report.dfy | `Severity`, `Issue`, `ReviewReport`, `CommitCommentPayload`, the HTTP reply, and the JSON form of a well-typed report |
| `GitHub` | github.dfy | `repoSlugFromUrl`, a hand-written matcher for both regular expressions, and `makeAppJWT` |
| `Comment` | comment.dfy | `normPath`, `formatBody` (a method proved against the specification function `Body`), payload choice, the delivery loop (a method proved against the reference function `Deliveries`), and the whole publisher run with its exit codes |
| `Review` | review.dfy | configuration and defaults, the request, reading the reply, normalisation, and the whole generator run with its exit codes |
| `Pipeline` | pipeline.dfy | what the publisher does with the reports the generator writes |

Supporting modules:

- `Wrappers` holds `Option` and `Result`.
- `Text` holds JavaScript white space, `trim`, ASCII upper-casing, character search and joins.
- `Json` holds the values `JSON.parse` yields, with property reads, truthiness and `String()`.

Everything the scripts get from outside is a parameter:

- **The environment** is a `map<string, string>`.
- **File contents** are an `Option<string>`, where `None` means the read failed.
- **The clock** is `now`, in whole seconds.
- **`JSON.parse`** is `parse: string -> Option<Json>`, where `None` means it throws.
- **JSON serialisation plus base64url encoding** is `segment`.
- **RSA-SHA256 signing** is `sign`, which returns `None` for a malformed key.
- **The network:**
  - For the publisher, the token reply is an `Option<Response>`, and comment request `j` gets `statuses[j]`. A request past the end of `statuses` is one whose `fetch` rejects.
  - For the generator, the reply is an `Option<Response>`. `None` is a rejection, which includes the two-minute abort.
- **Writing the report** is `writeFails`, which says whether `writeJsonAtomic` throws.

JavaScript semantics are written out where the scripts depend on them:

- Truthiness decides which comment sections appear, `issues || []`, `!issues.length` and `if (!report)`.
- Property reads on `null` throw. The named keys the scripts read yield `undefined` on numbers, booleans, strings and arrays. `length` is read only on `issues`, where arrays and strings have their own cases and on an object it is an own key.
- `String()` and template literals turn values into text.
- The regular expressions ignore case.
- `trim` uses JavaScript's white-space class.
- The scripts are ES modules, so they run in strict mode. Assigning `report.issues` on a primitive report therefore throws.
- A throw at module top level ends the process with status 1. A throw inside the `async` block exits with 9.

## Model

| member | source | states |
|---|---|---|
| Env.Required | src/lib/env.ts:1-5 | succeeds exactly when the variable is set to a non-empty string and returns it; otherwise the error is `Missing env: NAME` |
| Env.Optional | src/lib/env.ts:7-10 | a set variable is returned even when empty; an unset one gives the default, "" unless given |
| Env.RequiredRefinesOptional | src/lib/env.ts:1-10 | the two lookups agree wherever `required` succeeds; they differ only on a variable set to "" |
| Report.Severity.Label | src/types/report.ts:1 | every severity has one of the four labels `low`, `medium`, `high`, `critical` |
| Report.IssueJson | src/types/report.ts:3-11 | the JSON form of a finding holds each field under its schema key; a missing recommendation is absent and a missing code suggestion is `null` |
| Text.Trim | src/review.ts:19 | the result is the slice of the input between leading and trailing JavaScript white space; it is empty exactly when the input is all white space |
| Text.AsciiUpper | src/comment.ts:20 | same length; each lower-case ASCII letter becomes its upper-case letter, no lower-case ASCII letter is left, and every other character is unchanged |
| Text.Concat | src/comment.ts:28 | the join with "" is empty exactly when every part is empty |
| GitHub.MatchHttps | src/lib/github.ts:5 | a match is a decomposition of the URL into `http(s)://`, a host without `/`, an owner without `/`, a name without `.`, `/` or white space, and an optional `.git`, ignoring case |
| GitHub.MatchHttpsComplete | src/lib/github.ts:5 | every decomposition of that form is found |
| GitHub.MatchSsh | src/lib/github.ts:7 | a match is a decomposition into `git@`, a host without `:`, `:`, owner, `/`, name and an optional `.git` |
| GitHub.MatchSshComplete | src/lib/github.ts:7 | every decomposition of that form is found |
| GitHub.RepoSlugFromUrl | src/lib/github.ts:4-10 | succeeds exactly when one of the two patterns matches; otherwise the error is `Cannot parse repo slug: URL` |
| GitHub.SlugOfHttpsUrl | src/lib/github.ts:5-6 | an HTTPS URL gives `OWNER/NAME` |
| GitHub.SlugOfSshUrl | src/lib/github.ts:7-8 | an SSH URL gives `OWNER/NAME`; the HTTPS pattern never takes it first |
| GitHub.SameSlugForBothForms | src/lib/github.ts:4-9 | the HTTPS and SSH forms of a repository give the same slug |
| GitHub.SlugShape | src/lib/github.ts:4-9 | a slug is a non-empty owner without `/`, then `/`, then a valid name |
| GitHub.AcceptedUrlHasSlash | src/lib/github.ts:4-9 | every accepted URL contains a `/` after the owner, so a string without one is rejected |
| GitHub.RejectsTrailingSlash | src/lib/github.ts:4-9 | a URL ending in `/` is rejected |
| GitHub.SplitNameRejectsDot | src/lib/github.ts:5 | a name made of two dot-free parts joined by one `.`, the second not `git` in any case, does not match (every other dotted name is excluded by `SplitName`'s own contract, which only accepts a dot-free name plus an optional `.git`) |
| GitHub.RejectsDottedName | src/lib/github.ts:5-9 | an HTTP(S) URL whose name is two dot-free parts joined by one `.`, the second not `git`, is rejected |
| GitHub.ClaimsAt | src/lib/github.ts:14-16 | the token is issued 60 s in the past and expires 480 s ahead, within GitHub's ten-minute limit; the issuer is the App id |
| GitHub.MakeAppJWT | src/lib/github.ts:12-22 | the token is `header.payload.signature`, with the signature taken over exactly `header.payload`; an unreadable key and a rejected key are errors |
| GitHub.MintedTokenVerifies | src/lib/github.ts:15-21 | a minted token splits back into the encoded header, the encoded claims and a signature that checks against them |
| Comment.NormPath | src/comment.ts:14 | exactly one leading `./` is dropped; any other path is unchanged |
| Comment.NormPathUndoesPrefix | src/comment.ts:14 | `./` followed by any text normalises to that text |
| Comment.NormPathExamples | src/comment.ts:14 | `./src/a.php` gives `src/a.php`; `././a` gives `./a`; `./` gives "" |
| Comment.ViewOf | src/comment.ts:16-26 | reading an element's properties fails exactly for `null` |
| Comment.SectionText | src/comment.ts:19-26 | every section is non-empty; all sections but the code suggestion end in a blank line |
| Comment.FormatBody | src/comment.ts:16-29 | the pushed parts, joined, are exactly `Body`: the sections of the truthy fields in order |
| Comment.SectionsPresentInOrder | src/comment.ts:19-26 | a section appears exactly when its field is truthy, in the order severity, issue, recommendation, code suggestion |
| Comment.BodyEmptyIff | src/comment.ts:16-29 | the body is empty exactly when all four fields are falsy |
| Comment.SeverityOpensBody | src/comment.ts:19-20 | a truthy severity opens the body with `**Severity:** ` and the upper-cased label |
| Comment.CodeClosesBody | src/comment.ts:25-26 | a truthy code suggestion closes the body with its text and the closing fence, with no newline between them |
| Comment.PathOf | src/comment.ts:74 | a falsy `file` gives ""; a truthy string gives its `NormPath`; a truthy non-string throws |
| Comment.LineOf | src/comment.ts:75 | the position is `line` when it is a number and 0 otherwise, as `Number.isFinite` admits only numbers |
| Comment.ChoosePayload | src/comment.ts:77-80 | inline exactly when the path is non-empty and the line positive, carrying both; the body is kept either way |
| Comment.Prepare | src/comment.ts:73-80 | building an element's payload throws exactly for a `null` element or a truthy non-string `file` |
| Comment.PayloadChoice | src/comment.ts:72-80 | an element is posted inline exactly when its `file` is a string that is non-empty once normalised and its `line` is a positive number; building the payload throws only for `null` or a truthy non-string `file` |
| Comment.PayloadExamples | src/comment.ts:74-80 | `./src/a.php` at line 42 is inline at `src/a.php`; a line of 0 or below, or the file `./`, gives a commit-level comment |
| Comment.PreparePayload | src/comment.ts:73-80 | one loop step computes that element's payload |
| Comment.Deliveries | src/comment.ts:72-86 | reference delivery: at most one post per remaining element |
| Comment.Deliver | src/comment.ts:72-86 | the loop's posts, failures and stop are exactly those of `Deliveries` |
| Comment.PostsFollowPayloads | src/comment.ts:72-86 | the posts are the payloads of consecutive elements in report order |
| Comment.FailuresAreRefusedPosts | src/comment.ts:82-85 | the recorded failures are exactly the posted indices whose reply was not 201 |
| Comment.FailuresIncrease | src/comment.ts:72-86 | failures are recorded in increasing index order |
| Comment.DeliveryOrder | src/comment.ts:72-86 | posts follow report order; the failures are exactly the posted indices whose reply was not 201, in increasing order |
| Comment.DeliveryCompletes | src/comment.ts:72-91 | the loop stops early exactly when some element throws or some request gets no reply; otherwise every element is posted |
| Comment.DeliveryIgnoresStatuses | src/comment.ts:82-85 | a failed post does not stop or change later posts |
| Comment.Chars | src/comment.ts:72 | iterating a string gives one single-character string per character |
| Comment.IssuesOf | src/comment.ts:66-72 | a `null` report throws; a falsy or empty `issues`, a boolean or a number means nothing to post; a non-empty array is posted element by element; a non-empty string is iterated character by character; an object throws exactly when its `length` is truthy and otherwise posts nothing; reading throws exactly in those two cases |
| Comment.StringIssuesPostEmptyComments | src/comment.ts:66-80 | a non-empty string `issues` posts one commit-level comment with an empty body per character |
| Comment.Publish | src/comment.ts:47-92 | exit 9 when the token cannot be minted or a request rejects; 3 when the token is refused; 9 when a granted token's reply does not parse or is `null`; 9 for a bad slug or an unparsable report; 2 for a missing or empty report; 0 for nothing to post; otherwise the delivery of `Deliveries`, exiting 9 if it stopped and 0 if not |
| Comment.CompletedDeliveryExitsZero | src/comment.ts:72-88 | when every element has a payload and every request a reply, each element is posted once, in order, and the failures are the non-201 replies |
| Review.ConfigFrom | src/review.ts:6-11 | every unset variable takes its documented default; every set one is used as given |
| Review.RequestFor | src/review.ts:41-49 | the request goes to the configured URL and model, is aborted after two minutes, and asks for a JSON object at temperature 0 with two messages |
| Review.RequestCarriesDiff | src/review.ts:39-52 | the messages are the system prompt and exactly `Commit: COMMIT Diff: DIFF`, so the user message ends with the diff; the authorization is exactly `Bearer KEY` |
| Review.PromptEndsWithScheme | src/review.ts:32-37 | the system prompt ends with the report shape |
| Review.First | src/review.ts:61 | `?.[0]` gives an array's first element and nothing for primitives |
| Review.ContentOfFirstChoice | src/review.ts:61-62 | any non-null content of the first choice's message is the text parsed as the report, converted as `String()` does: a string as it is, a number in decimal, an object as `[object Object]` |
| Review.ContentText | src/review.ts:61 | "" whenever the chain breaks: an envelope that is not an object, `choices` absent, `null` or empty, a first choice without `message`, or a message whose `content` is absent or `null` |
| Review.Decoded | src/review.ts:59-66 | the report is decoded only when the envelope parses; an envelope whose content text is "" leaves "" to parse |
| Review.EmptyContentIsInvalidJson | src/review.ts:59-66 | since `JSON.parse("")` throws, a reply whose content text is "" (no choices, no message, no or `null` content) is never answered, so the run exits 5 |
| Review.Normalized | src/review.ts:73-76 | `issues` is always an array and kept when it was one; `commit` is the configured one; every other key is unchanged |
| Review.NormalizedIdempotent | src/review.ts:73-76 | normalising twice is normalising once |
| Review.NormalizedKeepsIssuesIff | src/review.ts:73-76 | the returned issues survive exactly when they are an array; the returned commit survives exactly when it equals the configured one |
| Review.EmptyReport | src/review.ts:22 | the blank-diff report is the normalisation of an empty object |
| Review.RunReview | src/review.ts:14-82 | exit 2 for a missing or empty diff; for a blank diff, exit 0 with the empty report or 1 if the write throws; 3 without a key; then 9 for a rejected request, 7 for a non-2xx status, 5 for unparsable JSON, 6 for a falsy report, 9 for a primitive one; an object is written normalised and an array unchanged; a report is written exactly when the exit is 0 |
| Pipeline.WellTypedIssuePrepares | src/comment.ts:72-80 | a well-typed finding always yields a payload, inline exactly when its normalised file is non-empty and its line positive, with a body opening with the upper-cased severity |
| Pipeline.WellTypedReportReads | src/comment.ts:66-70 | the publisher reads a well-typed report's findings in order |
| Pipeline.WellTypedReportDelivers | src/comment.ts:72-86 | with a reply for every request, a well-typed report gets one comment per finding, in order, and exits without stopping |
| Pipeline.NormalizedReportIsReadable | src/review.ts:73-78 | a report the generator normalised never makes the publisher throw before its loop; something is posted exactly when the model returned a non-empty `issues` array |
| Pipeline.EmptyReportPostsNothing | src/review.ts:21-25 | the blank-diff report posts nothing |
| Pipeline.ArrayReportPostsNothing | src/comment.ts:66-70 | a bare-array report, which the generator writes unchanged, posts nothing |

## Left out

- Logging: every `console.log` and `console.error` is left out. The exit status carries the outcome.
- URLs and headers: the model does not build the GitHub request URLs, `encodeURIComponent`, or the fixed `Accept`, `User-Agent` and `Content-Type` headers. The generator's request is modelled as a record rather than the bytes sent.
- The installation token: the model checks that its reply parses and that `token` can be read. It does not model how the token is passed on as a bearer credential. The comment requests are the `statuses` sequence.
- `readText`, `writeJsonAtomic` and `postJson` are parameters. The temporary-file-and-rename write is not modelled, and neither is the abort timer; the two-minute limit is a field of the request.
- The `required` calls at the top of `comment.ts` run when the module loads, before the run. The publisher's configuration is therefore a parameter, and a missing variable (an uncaught throw, exit 1) is not part of `Comment.Publish`.
- Numbers: JSON numbers are integers. Fractions, `NaN`, `Infinity`, `-0` and number formatting beyond integers are not modelled, so a fractional `line` cannot occur in the model. Large integers are exact: JavaScript rounds integers above 2^53 when it parses them and prints integers of 1e21 and more in exponent form, whereas `Text.Decimal` prints every digit.
- Report.IssueJson: the type lets `code_suggestion` be absent, but the model always writes the key, as `null` when there is no suggestion. Both are falsy to the publisher, so no comment differs.
- A non-array `issues`: the publisher does not treat every non-array value as empty. Missing, `null`, boolean and number values post nothing, but strings and some objects behave otherwise. `Comment.IssuesOf` and `Comment.StringIssuesPostEmptyComments` model the code: a non-empty string is posted character by character as empty comments, and an object with a truthy `length` throws (exit 9).
- `toUpperCase`: only ASCII letters are mapped. Non-ASCII case mapping, including characters whose upper-case form is longer, is left out.
- Key order: JSON objects are maps, so the key order of the written report and of the request body is not modelled.
- String iteration: a model `string` is a sequence of Unicode scalar values, so a string `issues` is iterated code point by code point, as `for…of` does. Lone surrogates, which `JSON.parse` can produce from `"\ud800"`, cannot occur in a model string.
- Json.ToStr: every object becomes `[object Object]`. An object whose own `toString` key is not a function would make `String()` throw; this is not modelled.
- The index signature `[k: string]: unknown` of `Issue` is not modelled. The model's `Issue` is the well-typed form. The publisher itself reads raw JSON elements, which the model keeps as `Json`.
- Review.First: an object choices list is read at its `"0"` key. A string's first character is treated as `undefined`, since no property read after it finds anything.
- `res.text()` rejecting after a status arrives is not modelled. Only the `fetch` itself rejects.
- HTTP and `process.exit` as effects are left out. Each run returns a record of its exit status and of what it sent or wrote.

=== FILE: comment.dfy ===
/** The report publisher: authenticates as the GitHub App, reads the report and posts one
    commit comment per issue. The network is a list of reply statuses: comment request `j`
    gets `statuses[j]`, and a request past the end of the list is one whose `fetch`
    rejects. Reading the report file yields `None` when it cannot be read. */
module Comment {
  import opened Wrappers
  import opened Json
  import opened Report
  import Text
  import GitHub

  // ---------------------------------------------------------------------------------
  // Paths

  /** `normPath`: drops one leading `./`, and only one. */
  function NormPath(p: string): (r: string)
    ensures |p| >= 2 && p[..2] == "./" ==> "./" + r == p
    ensures !(|p| >= 2 && p[..2] == "./") ==> r == p
  {
    if |p| >= 2 && p[..2] == "./" then p[2..] else p
  }

  /** Prefixing `./` is undone by `NormPath`, whatever follows. */
  lemma NormPathUndoesPrefix(t: string)
    ensures NormPath("./" + t) == t
  {
    assert ("./" + t)[..2] == "./";
  }

  lemma NormPathExamples()
    ensures NormPath("./src/a.php") == "src/a.php"
    ensures NormPath("././a") == "./a"
    ensures NormPath("./") == ""
    ensures NormPath("src/a.php") == "src/a.php"
  {
    NormPathUndoesPrefix("src/a.php");
    NormPathUndoesPrefix("./a");
    NormPathUndoesPrefix("");
    assert "src/a.php"[..2] != "./" by { assert "src/a.php"[0] == 's'; }
  }

  // ---------------------------------------------------------------------------------
  // Comment body

  /** The six properties the publisher reads from an issue; `None` is `undefined`. */
  datatype IssueView = IssueView(
    severity: Option<Json>,
    file: Option<Json>,
    line: Option<Json>,
    issue: Option<Json>,
    recommendation: Option<Json>,
    codeSuggestion: Option<Json>)

  /** Reading the properties of a report element; reading a property of `null` throws. */
  function ViewOf(elem: Json): (r: Option<IssueView>)
    ensures r.None? <==> elem.Null?
    ensures r.Some? ==> r.value.file == Get(elem, "file") && r.value.line == Get(elem, "line")
  {
    if elem.Null? then None
    else Some(IssueView(Get(elem, "severity"), Get(elem, "file"), Get(elem, "line"),
                        Get(elem, "issue"), Get(elem, "recommendation"), Get(elem, "code_suggestion")))
  }

  datatype Section = SeveritySection | IssueSection | RecommendationSection | CodeSection {
    function Rank(): nat {
      match this
      case SeveritySection => 0
      case IssueSection => 1
      case RecommendationSection => 2
      case CodeSection => 3
    }
  }

  predicate Ascending(ss: seq<Section>) {
    forall i, j :: 0 <= i < j < |ss| ==> ss[i].Rank() < ss[j].Rank()
  }

  function FieldOf(v: IssueView, s: Section): Option<Json> {
    match s
    case SeveritySection => v.severity
    case IssueSection => v.issue
    case RecommendationSection => v.recommendation
    case CodeSection => v.codeSuggestion
  }

  /** The Markdown of one section: a bold label and the field's text. The severity is
      upper-cased; the first three sections end with a blank line; the code fence closes
      right after the suggestion's text, with no newline put before it. */
  function SectionText(s: Section, x: Json): (r: string)
    ensures s != CodeSection ==> |r| >= 2 && r[|r| - 2..] == "\n\n"
    ensures r != []
  {
    match s
    case SeveritySection => "**Severity:** " + Text.AsciiUpper(ToStr(x)) + "\n\n"
    case IssueSection => "**Issue:** " + ToStr(x) + "\n\n"
    case RecommendationSection => "**Recommendation:** " + ToStr(x) + "\n\n"
    case CodeSection => "**Code Suggestion:**\n```\n" + ToStr(x) + "```"
  }

  /** The text a section contributes: its Markdown when the field is there. */
  function SectionOf(v: IssueView, s: Section): string {
    match FieldOf(v, s)
    case Some(x) => SectionText(s, x)
    case None => ""
  }

  /** The sections whose field is truthy, in the order Severity, Issue, Recommendation,
      Code Suggestion. */
  function Present(v: IssueView): seq<Section> {
    (if Truthy(v.severity) then [SeveritySection] else []) +
    (if Truthy(v.issue) then [IssueSection] else []) +
    (if Truthy(v.recommendation) then [RecommendationSection] else []) +
    (if Truthy(v.codeSuggestion) then [CodeSection] else [])
  }

  /** The texts of the sections `ss`, in order. */
  function Render(v: IssueView, ss: seq<Section>): (r: seq<string>)
    ensures |r| == |ss|
  {
    if ss == [] then [] else [SectionOf(v, ss[0])] + Render(v, ss[1..])
  }

  lemma {:induction false} RenderAt(v: IssueView, ss: seq<Section>, k: nat)
    requires k < |ss|
    ensures Render(v, ss)[k] == SectionOf(v, ss[k])
  {
    if k > 0 {
      RenderAt(v, ss[1..], k - 1);
    }
  }

  lemma {:induction false} RenderSnoc(v: IssueView, ss: seq<Section>, s: Section)
    ensures Render(v, ss + [s]) == Render(v, ss) + [SectionOf(v, s)]
  {
    if ss != [] {
      RenderSnoc(v, ss[1..], s);
      assert (ss + [s])[1..] == ss[1..] + [s];
    }
  }

  /** The comment body for an issue: its present sections, in section order, joined with
      nothing in between. */
  function Body(v: IssueView): string {
    Text.Concat(Render(v, Present(v)))
  }

  /** `formatBody`: pushes the section of each truthy field, in turn, then joins them. */
  method FormatBody(v: IssueView) returns (body: string)
    ensures body == Body(v)
  {
    var parts: seq<string> := [];
    ghost var shown: seq<Section> := [];
    if Truthy(v.severity) {
      parts := parts + [SectionText(SeveritySection, v.severity.value)];
      RenderSnoc(v, shown, SeveritySection);
      shown := shown + [SeveritySection];
      assert parts == Render(v, shown);
    }
    if Truthy(v.issue) {
      parts := parts + [SectionText(IssueSection, v.issue.value)];
      RenderSnoc(v, shown, IssueSection);
      shown := shown + [IssueSection];
      assert parts == Render(v, shown);
    }
    if Truthy(v.recommendation) {
      parts := parts + [SectionText(RecommendationSection, v.recommendation.value)];
      RenderSnoc(v, shown, RecommendationSection);
      shown := shown + [RecommendationSection];
      assert parts == Render(v, shown);
    }
    if Truthy(v.codeSuggestion) {
      parts := parts + [SectionText(CodeSection, v.codeSuggestion.value)];
      RenderSnoc(v, shown, CodeSection);
      shown := shown + [CodeSection];
      assert parts == Render(v, shown);
    }
    assert shown == Present(v);
    body := Text.Concat(parts);
  }

  /** Sections appear exactly for the truthy fields, each once, in ascending rank. */
  lemma SectionsPresentInOrder(v: IssueView)
    ensures forall s :: s in Present(v) <==> Truthy(FieldOf(v, s))
    ensures Ascending(Present(v))
  {
  }

  /** The body is empty exactly when all four fields are falsy. */
  lemma BodyEmptyIff(v: IssueView)
    ensures Body(v) == "" <==>
      !Truthy(v.severity) && !Truthy(v.issue) && !Truthy(v.recommendation) && !Truthy(v.codeSuggestion)
  {
    var ss := Present(v);
    var parts := Render(v, ss);
    if ss != [] {
      assert parts[0] == SectionOf(v, ss[0]) != [];
    }
  }

  lemma ConcatFirst(parts: seq<string>)
    requires parts != []
    ensures Text.Concat(parts) == parts[0] + Text.Concat(parts[1..])
  {
  }

  lemma {:induction false} ConcatLast(parts: seq<string>)
    requires parts != []
    ensures Text.Concat(parts) == Text.Concat(parts[..|parts| - 1]) + parts[|parts| - 1]
  {
    if |parts| > 1 {
      ConcatLast(parts[1..]);
      assert parts[1..][..|parts[1..]| - 1] == parts[..|parts| - 1][1..];
    }
  }

  /** A truthy severity opens the body with its upper-cased section. */
  lemma SeverityOpensBody(v: IssueView)
    requires Truthy(v.severity)
    ensures var head := "**Severity:** " + Text.AsciiUpper(ToStr(v.severity.value)) + "\n\n";
      |head| <= |Body(v)| && Body(v)[..|head|] == head
  {
    var ss := Present(v);
    assert ss[0] == SeveritySection;
    var parts := Render(v, ss);
    ConcatFirst(parts);
  }

  /** A truthy code suggestion closes the body: the section ends with the suggestion's
      text immediately followed by the closing fence. */
  lemma CodeClosesBody(v: IssueView)
    requires Truthy(v.codeSuggestion)
    ensures var tail := "**Code Suggestion:**\n```\n" + ToStr(v.codeSuggestion.value) + "```";
      |tail| <= |Body(v)| && Body(v)[|Body(v)| - |tail|..] == tail
  {
    var ss := Present(v);
    assert ss[|ss| - 1] == CodeSection;
    var parts := Render(v, ss);
    RenderAt(v, ss, |ss| - 1);
    ConcatLast(parts);
    var tail := parts[|parts| - 1];
    var front := Text.Concat(parts[..|parts| - 1]);
    assert (front + tail)[|front + tail| - |tail|..] == tail;
  }

  // ---------------------------------------------------------------------------------
  // Payloads

  /** The position sent for an issue: its `line` when that is a number, 0 otherwise. */
  function LineOf(v: IssueView): (n: int)
    ensures v.line.Some? && v.line.value.Num? ==> n == v.line.value.n
    ensures !(v.line.Some? && v.line.value.Num?) ==> n == 0
  {
    match v.line
    case Some(Num(n)) => n
    case _ => 0
  }

  /** The path sent for an issue: "" for a falsy `file`, the normalised string otherwise;
      `None` when `file` is truthy but not a string, where calling `replace` throws. */
  function PathOf(v: IssueView): (r: Option<string>)
    ensures r.None? <==> Truthy(v.file) && !v.file.value.Str?
    ensures !Truthy(v.file) ==> r == Some("")
    ensures Truthy(v.file) && v.file.value.Str? ==> r == Some(NormPath(v.file.value.s))
  {
    if !Truthy(v.file) then Some("")
    else match v.file.value
      case Str(s) => Some(NormPath(s))
      case _ => None
  }

  /** The payload choice: inline exactly when there is a path and a positive line. */
  function ChoosePayload(body: string, path: string, line: int): (p: CommitCommentPayload)
    ensures p.body == body
    ensures p.Inline? <==> path != "" && line > 0
    ensures p.Inline? ==> p.path == path && p.position == line
  {
    if path != "" && line > 0 then Inline(body, path, line) else CommitLevel(body)
  }

  /** The payload posted for one report element, or `None` where building it throws. */
  function Prepare(elem: Json): (r: Option<CommitCommentPayload>)
    ensures r.None? <==> elem.Null? || (Truthy(Get(elem, "file")) && !Get(elem, "file").value.Str?)
  {
    match ViewOf(elem)
    case None => None
    case Some(v) =>
      match PathOf(v)
      case None => None
      case Some(path) => Some(ChoosePayload(Body(v), path, LineOf(v)))
  }

  /** An element is posted inline exactly when its `file` is a string that stays non-empty
      once normalised and its `line` is a positive number; the path is normalised and the
      position is the line as given. Building the payload throws only for a `null`
      element or a truthy non-string `file`. */
  lemma PayloadChoice(elem: Json)
    ensures Prepare(elem).None? <==>
      elem.Null? || (Truthy(Get(elem, "file")) && !Get(elem, "file").value.Str?)
    ensures Prepare(elem).Some? ==>
      var p := Prepare(elem).value; var f := Get(elem, "file"); var l := Get(elem, "line");
      && p.body == Body(ViewOf(elem).value)
      && (p.Inline? <==> f.Some? && f.value.Str? && NormPath(f.value.s) != "" && l.Some? && l.value.Num? && l.value.n > 0)
      && (p.Inline? ==> p.path == NormPath(f.value.s) && p.position == l.value.n)
  {
  }

  /** The worked cases: `./src/a.php` at line 42 is inline at `src/a.php`, position 42;
      a line of 0 or below, or a file of `./`, gives a commit-level comment. */
  lemma PayloadExamples(elem: Json, line: int)
    requires elem.Obj?
    ensures Get(elem, "file") == Some(Str("./src/a.php")) && Get(elem, "line") == Some(Num(42)) ==>
      Prepare(elem) == Some(Inline(Body(ViewOf(elem).value), "src/a.php", 42))
    ensures Get(elem, "file") == Some(Str("./src/a.php")) && Get(elem, "line") == Some(Num(line)) && line <= 0 ==>
      Prepare(elem) == Some(CommitLevel(Body(ViewOf(elem).value)))
    ensures Get(elem, "file") == Some(Str("./")) ==>
      Prepare(elem) == Some(CommitLevel(Body(ViewOf(elem).value)))
  {
    NormPathExamples();
  }

  // ---------------------------------------------------------------------------------
  // Delivery

  /** The payload step of the loop for element `k`: reads the issue, formats the body,
      normalises the path and chooses the payload form, in the order the loop does. */
  method PreparePayload(items: seq<Json>, k: nat, ghost ps: seq<Option<CommitCommentPayload>>)
    returns (p: Option<CommitCommentPayload>)
    requires k < |items| && PreparedIs(items, ps)
    ensures p == ps[k]
  {
    assert ps[k] == Prepare(items[k]);
    var view := ViewOf(items[k]);
    if view.None? {
      return None;
    }
    var body := FormatBody(view.value);
    var path := PathOf(view.value);
    if path.None? {
      return None;
    }
    p := Some(ChoosePayload(body, path.value, LineOf(view.value)));
  }

  /** The payload of each element, `None` where building it throws. */
  function Prepared(items: seq<Json>): (r: seq<Option<CommitCommentPayload>>)
    ensures |r| == |items|
  {
    if items == [] then [] else [Prepare(items[0])] + Prepared(items[1..])
  }

  lemma {:induction false} PreparedAt(items: seq<Json>, k: nat)
    requires k < |items|
    ensures Prepared(items)[k] == Prepare(items[k])
  {
    if k > 0 {
      PreparedAt(items[1..], k - 1);
    }
  }

  /** `ps` holds the payload of each element of `items`. */
  predicate PreparedIs(items: seq<Json>, ps: seq<Option<CommitCommentPayload>>) {
    && |ps| == |items|
    && forall k {:trigger Prepare(items[k])} :: 0 <= k < |items| ==> ps[k] == Prepare(items[k])
  }

  lemma PreparedIsPrepared(items: seq<Json>)
    ensures PreparedIs(items, Prepared(items))
  {
    forall k | 0 <= k < |items| ensures Prepared(items)[k] == Prepare(items[k]) {
      PreparedAt(items, k);
    }
  }

  /** What a delivery did: the payloads posted, in order, the indices whose reply was not
      201, and whether it stopped on a thrown error. */
  datatype Delivery = Delivery(posts: seq<CommitCommentPayload>, failed: seq<nat>, crashed: bool)

  /** The reference definition of the delivery of the prepared payloads `ps` from index
      `k` on: each one is posted in turn; a reply other than 201 is recorded and the loop
      goes on; a payload that throws, or a request that rejects, stops everything. */
  function Deliveries(ps: seq<Option<CommitCommentPayload>>, statuses: seq<int>, k: nat): (d: Delivery)
    ensures k <= |ps| ==> |d.posts| <= |ps| - k
    decreases |ps| - k
  {
    if k >= |ps| then Delivery([], [], false)
    else match ps[k]
      case None => Delivery([], [], true)
      case Some(p) =>
        if k >= |statuses| then Delivery([p], [], true)
        else
          var rest := Deliveries(ps, statuses, k + 1);
          Delivery([p] + rest.posts, (if statuses[k] != 201 then [k] else []) + rest.failed, rest.crashed)
  }

  /** What has been delivered followed by what remains. */
  function Then(done: Delivery, rest: Delivery): Delivery {
    Delivery(done.posts + rest.posts, done.failed + rest.failed, rest.crashed)
  }

  /** One more element posted: it moves from what remains to what has been delivered. */
  lemma DeliverStep(ps: seq<Option<CommitCommentPayload>>, statuses: seq<int>, k: nat,
                    posts: seq<CommitCommentPayload>, failed: seq<nat>)
    requires k < |ps| && ps[k].Some? && k < |statuses|
    ensures Then(Delivery(posts, failed, false), Deliveries(ps, statuses, k)) ==
            Then(Delivery(posts + [ps[k].value], failed + (if statuses[k] != 201 then [k] else []), false),
                 Deliveries(ps, statuses, k + 1))
  {
    var rest := Deliveries(ps, statuses, k + 1);
    var f := if statuses[k] != 201 then [k] else [];
    assert posts + ([ps[k].value] + rest.posts) == (posts + [ps[k].value]) + rest.posts;
    assert failed + (f + rest.failed) == (failed + f) + rest.failed;
  }

  /** A payload that throws, or a request without a reply, ends the delivery. */
  lemma DeliverStops(ps: seq<Option<CommitCommentPayload>>, statuses: seq<int>, k: nat,
                     posts: seq<CommitCommentPayload>, failed: seq<nat>)
    requires k < |ps| && (ps[k].None? || k >= |statuses|)
    ensures Then(Delivery(posts, failed, false), Deliveries(ps, statuses, k)) ==
            Delivery(if ps[k].None? then posts else posts + [ps[k].value], failed, true)
  {
    assert failed + [] == failed;
    assert posts + [] == posts;
  }

  /** Past the last element nothing remains. */
  lemma DeliverEnds(ps: seq<Option<CommitCommentPayload>>, statuses: seq<int>, k: nat,
                    posts: seq<CommitCommentPayload>, failed: seq<nat>)
    requires k >= |ps|
    ensures Then(Delivery(posts, failed, false), Deliveries(ps, statuses, k)) == Delivery(posts, failed, false)
  {
    assert failed + [] == failed;
    assert posts + [] == posts;
  }

  /** The delivery loop: one request per issue, in report order. */
  method Deliver(items: seq<Json>, statuses: seq<int>) returns (d: Delivery)
    ensures d == Deliveries(Prepared(items), statuses, 0)
  {
    PreparedIsPrepared(items);
    d := DeliverPrepared(items, statuses, Prepared(items));
  }

  method DeliverPrepared(items: seq<Json>, statuses: seq<int>, ghost ps: seq<Option<CommitCommentPayload>>)
    returns (d: Delivery)
    requires PreparedIs(items, ps)
    ensures d == Deliveries(ps, statuses, 0)
  {
    var posts: seq<CommitCommentPayload> := [];
    var failed: seq<nat> := [];
    var k := 0;
    while k < |items|
      invariant k <= |items| && k <= |statuses|
      invariant Deliveries(ps, statuses, 0) == Then(Delivery(posts, failed, false), Deliveries(ps, statuses, k))
    {
      var payload := PreparePayload(items, k, ps);
      if payload.None? {
        DeliverStops(ps, statuses, k, posts, failed);
        return Delivery(posts, failed, true);
      }
      if k >= |statuses| {
        DeliverStops(ps, statuses, k, posts, failed);
        return Delivery(posts + [payload.value], failed, true);
      }
      DeliverStep(ps, statuses, k, posts, failed);
      posts := posts + [payload.value];
      if statuses[k] != 201 {
        failed := failed + [k];
      }
      k := k + 1;
    }
    DeliverEnds(ps, statuses, k, posts, failed);
    d := Delivery(posts, failed, false);
  }

  /** The posts from `k` on are the payloads of elements `k`, `k + 1`, … in that order. */
  lemma {:induction false} PostsFollowPayloads(ps: seq<Option<CommitCommentPayload>>, statuses: seq<int>, k: nat)
    ensures forall i :: 0 <= i < |Deliveries(ps, statuses, k).posts| ==>
      k + i < |ps| && ps[k + i] == Some(Deliveries(ps, statuses, k).posts[i])
    decreases |ps| - k
  {
    if k < |ps| && ps[k].Some? && k < |statuses| {
      PostsFollowPayloads(ps, statuses, k + 1);
      var d := Deliveries(ps, statuses, k);
      var rest := Deliveries(ps, statuses, k + 1);
      assert d.posts == [ps[k].value] + rest.posts;
      forall i | 0 <= i < |d.posts| ensures k + i < |ps| && ps[k + i] == Some(d.posts[i]) {
        if i > 0 { assert d.posts[i] == rest.posts[i - 1]; }
      }
    } else if k < |ps| && ps[k].Some? {
      var d := Deliveries(ps, statuses, k);
      assert d.posts == [ps[k].value];
      assert ps[k + 0] == Some(d.posts[0]);
    } else {
      assert Deliveries(ps, statuses, k).posts == [];
    }
  }

  /** The failures recorded from `k` on are exactly the posted indices whose reply was
      not 201. */
  lemma {:induction false} FailuresAreRefusedPosts(ps: seq<Option<CommitCommentPayload>>, statuses: seq<int>, k: nat)
    ensures forall j :: j in Deliveries(ps, statuses, k).failed <==>
      k <= j < k + |Deliveries(ps, statuses, k).posts| && j < |statuses| && statuses[j] != 201
    decreases |ps| - k
  {
    if k < |ps| && ps[k].Some? && k < |statuses| {
      FailuresAreRefusedPosts(ps, statuses, k + 1);
      var d := Deliveries(ps, statuses, k);
      var rest := Deliveries(ps, statuses, k + 1);
      assert |d.posts| == 1 + |rest.posts|;
      assert d.failed == (if statuses[k] != 201 then [k] else []) + rest.failed;
    }
  }

  /** The failures are recorded in increasing order, none before `k`. */
  lemma {:induction false} FailuresIncrease(ps: seq<Option<CommitCommentPayload>>, statuses: seq<int>, k: nat)
    ensures forall i :: 0 <= i < |Deliveries(ps, statuses, k).failed| ==> k <= Deliveries(ps, statuses, k).failed[i]
    ensures forall i, j :: 0 <= i < j < |Deliveries(ps, statuses, k).failed| ==>
      Deliveries(ps, statuses, k).failed[i] < Deliveries(ps, statuses, k).failed[j]
    decreases |ps| - k
  {
    if k < |ps| && ps[k].Some? && k < |statuses| {
      FailuresIncrease(ps, statuses, k + 1);
      var d := Deliveries(ps, statuses, k);
      var rest := Deliveries(ps, statuses, k + 1);
      if statuses[k] != 201 {
        assert d.failed == [k] + rest.failed;
        forall i | 0 < i < |d.failed| ensures d.failed[i] == rest.failed[i - 1] && k < d.failed[i] {
        }
      } else {
        assert d.failed == rest.failed;
      }
    } else {
      assert Deliveries(ps, statuses, k).failed == [];
    }
  }

  /** Posts follow the payload order, one per element from `k` on; the failures are
      exactly the indices posted whose reply was not 201, in increasing order. */
  lemma DeliveryOrder(ps: seq<Option<CommitCommentPayload>>, statuses: seq<int>, k: nat)
    ensures var d := Deliveries(ps, statuses, k);
      && (forall i :: 0 <= i < |d.posts| ==> k + i < |ps| && ps[k + i] == Some(d.posts[i]))
      && (forall j :: j in d.failed <==> k <= j < k + |d.posts| && j < |statuses| && statuses[j] != 201)
      && (forall i, j :: 0 <= i < j < |d.failed| ==> d.failed[i] < d.failed[j])
  {
    PostsFollowPayloads(ps, statuses, k);
    FailuresAreRefusedPosts(ps, statuses, k);
    FailuresIncrease(ps, statuses, k);
  }

  /** A delivery from `k` stops early exactly when some later payload throws or some
      request is left without a reply; otherwise every remaining element is posted. */
  lemma {:induction false} DeliveryCompletes(ps: seq<Option<CommitCommentPayload>>, statuses: seq<int>, k: nat)
    requires k <= |ps|
    ensures var d := Deliveries(ps, statuses, k);
      && (d.crashed <==> exists j :: k <= j < |ps| && (ps[j].None? || j >= |statuses|))
      && (!d.crashed ==> |d.posts| == |ps| - k)
    decreases |ps| - k
  {
    if k < |ps| && ps[k].Some? && k < |statuses| {
      DeliveryCompletes(ps, statuses, k + 1);
      var d := Deliveries(ps, statuses, k);
      var rest := Deliveries(ps, statuses, k + 1);
      assert d.crashed == rest.crashed && |d.posts| == 1 + |rest.posts|;
      if exists j :: k <= j < |ps| && (ps[j].None? || j >= |statuses|) {
        var j :| k <= j < |ps| && (ps[j].None? || j >= |statuses|);
        assert k + 1 <= j;
        assert rest.crashed;
      }
      if rest.crashed {
        var j :| k + 1 <= j < |ps| && (ps[j].None? || j >= |statuses|);
        assert k <= j < |ps| && (ps[j].None? || j >= |statuses|);
        assert d.crashed;
      }
    } else if k < |ps| {
      assert ps[k].None? || k >= |statuses|;
    }
  }

  /** What is posted does not depend on the statuses earlier posts received, only on
      whether a reply arrives at all. */
  lemma {:induction false} DeliveryIgnoresStatuses(ps: seq<Option<CommitCommentPayload>>, s1: seq<int>, s2: seq<int>, k: nat)
    requires |s1| == |s2|
    ensures Deliveries(ps, s1, k).posts == Deliveries(ps, s2, k).posts
    ensures Deliveries(ps, s1, k).crashed == Deliveries(ps, s2, k).crashed
    decreases |ps| - k
  {
    if k < |ps| && ps[k].Some? && k < |s1| {
      DeliveryIgnoresStatuses(ps, s1, s2, k + 1);
    }
  }

  // ---------------------------------------------------------------------------------
  // The run

  /** What `JSON.parse(report).issues || []` leaves the loop: nothing to post, elements
      to post, or a thrown error (a `null` report, or an object with a truthy `length`
      that `for…of` cannot iterate). A string is iterated code point by code point. */
  datatype IssuesRead = Unreadable | NothingToPost | ToPost(items: seq<Json>)

  /** Iterating a string: one single-character string per character. */
  function Chars(s: string): (r: seq<Json>)
    ensures |r| == |s|
    ensures forall k :: 0 <= k < |s| ==> r[k] == Str([s[k]])
  {
    if s == [] then [] else [Str([s[0]])] + Chars(s[1..])
  }

  function IssuesOf(report: Json): (r: IssuesRead)
    ensures report.Null? ==> r == Unreadable
    ensures !report.Null? && Get(report, "issues") in {None, Some(Null), Some(Arr([]))} ==> r == NothingToPost
    ensures !report.Null? && !Truthy(Get(report, "issues")) ==> r == NothingToPost
    ensures Get(report, "issues").Some? && Get(report, "issues").value.Arr? && Get(report, "issues").value.items != [] ==>
      r == ToPost(Get(report, "issues").value.items)
    ensures Get(report, "issues").Some? && (Get(report, "issues").value.Bool? || Get(report, "issues").value.Num?) ==>
      r == NothingToPost
    ensures Get(report, "issues").Some? && Get(report, "issues").value.Str? && Get(report, "issues").value.s != "" ==>
      r == ToPost(Chars(Get(report, "issues").value.s))
    ensures Get(report, "issues").Some? && Get(report, "issues").value.Obj? ==>
      r == (if Truthy(Get(Get(report, "issues").value, "length")) then Unreadable else NothingToPost)
    ensures r == Unreadable <==>
      report.Null? ||
      (Get(report, "issues").Some? && Get(report, "issues").value.Obj? && Truthy(Get(Get(report, "issues").value, "length")))
    ensures r.ToPost? ==> r.items != []
  {
    if report.Null? then Unreadable
    else
      var v := Get(report, "issues");
      var list := if Truthy(v) then v.value else Arr([]);
      match list
      case Arr(items) => if items == [] then NothingToPost else ToPost(items)
      case Str(s) =>
        if s == [] then NothingToPost
        else ToPost(Chars(s))
      case Obj(_) => if Truthy(Get(list, "length")) then Unreadable else NothingToPost
      case _ => NothingToPost
  }

  /** A non-empty string `issues` is iterated character by character, and each character
      is posted as a commit-level comment with an empty body: a string has none of the
      properties `formatBody` reads. */
  lemma StringIssuesPostEmptyComments(report: Json, s: string)
    requires Get(report, "issues") == Some(Str(s)) && s != ""
    ensures IssuesOf(report) == ToPost(Chars(s))
    ensures forall k :: 0 <= k < |s| ==> Prepare(Chars(s)[k]) == Some(CommitLevel(""))
  {
    forall k | 0 <= k < |s| ensures Prepare(Chars(s)[k]) == Some(CommitLevel("")) {
      StringPostsEmptyComment([s[k]]);
    }
  }

  lemma StringPostsEmptyComment(t: string)
    ensures Prepare(Str(t)) == Some(CommitLevel(""))
  {
    var v := ViewOf(Str(t)).value;
    assert Present(v) == [];
    assert Body(v) == "";
    assert PathOf(v) == Some("");
  }

  /** The environment the publisher reads at start-up. */
  datatype PublisherConfig = PublisherConfig(repoUrl: string, sha: string, appId: string, installationId: string)

  /** The exit status, the comment payloads posted and the indices whose post failed. */
  datatype PublishRun = PublishRun(exit: int, posts: seq<CommitCommentPayload>, failed: seq<nat>)

  predicate Minted(cfg: PublisherConfig, pem: Option<string>, now: int,
                   segment: Json -> string, sign: (string, string) -> Option<string>) {
    GitHub.MakeAppJWT(cfg.appId, pem, now, segment, sign).Ok?
  }

  /** The installation token was granted (status 201) and its body parses to a value
      whose `token` can be read. */
  predicate Granted(tokenReply: Option<Response>, parse: string -> Option<Json>) {
    && tokenReply.Some? && tokenReply.value.status == 201
    && parse(tokenReply.value.text).Some? && !parse(tokenReply.value.text).value.Null?
  }

  /** Everything before the loop succeeded and the report parsed. */
  predicate Loaded(cfg: PublisherConfig, reportText: Option<string>, parse: string -> Option<Json>) {
    && GitHub.RepoSlugFromUrl(cfg.repoUrl).Ok?
    && reportText.Some? && reportText.value != ""
    && parse(reportText.value).Some?
  }

  /** The publisher's run, from the token exchange to the exit status. `pem` is the key
      file's contents, `now` the clock in whole seconds. */
  method Publish(cfg: PublisherConfig, pem: Option<string>, now: int,
                 segment: Json -> string, sign: (string, string) -> Option<string>,
                 parse: string -> Option<Json>, tokenReply: Option<Response>,
                 reportText: Option<string>, statuses: seq<int>) returns (run: PublishRun)
    ensures run.exit in {0, 2, 3, 9}
    ensures !Minted(cfg, pem, now, segment, sign) || tokenReply.None? ==> run == PublishRun(9, [], [])
    ensures Minted(cfg, pem, now, segment, sign) && tokenReply.Some? && tokenReply.value.status != 201 ==>
      run == PublishRun(3, [], [])
    ensures (Minted(cfg, pem, now, segment, sign) && tokenReply.Some? && tokenReply.value.status == 201 &&
             !Granted(tokenReply, parse)) ==> run == PublishRun(9, [], [])
    ensures Minted(cfg, pem, now, segment, sign) && Granted(tokenReply, parse) ==>
      && (GitHub.RepoSlugFromUrl(cfg.repoUrl).Err? ==> run == PublishRun(9, [], []))
      && (GitHub.RepoSlugFromUrl(cfg.repoUrl).Ok? && (reportText.None? || reportText.value == "") ==>
            run == PublishRun(2, [], []))
      && ((GitHub.RepoSlugFromUrl(cfg.repoUrl).Ok? && reportText.Some? && reportText.value != "" &&
           parse(reportText.value).None?) ==> run == PublishRun(9, [], []))
    ensures Minted(cfg, pem, now, segment, sign) && Granted(tokenReply, parse) && Loaded(cfg, reportText, parse) ==>
      match IssuesOf(parse(reportText.value).value)
      case Unreadable => run == PublishRun(9, [], [])
      case NothingToPost => run == PublishRun(0, [], [])
      case ToPost(items) =>
        var d := Deliveries(Prepared(items), statuses, 0);
        run == PublishRun(if d.crashed then 9 else 0, d.posts, d.failed)
    ensures run.posts != [] ==> Minted(cfg, pem, now, segment, sign) && Granted(tokenReply, parse) && Loaded(cfg, reportText, parse)
  {
    var jwt := GitHub.MakeAppJWT(cfg.appId, pem, now, segment, sign);
    if jwt.Err? || tokenReply.None? {
      return PublishRun(9, [], []);
    }
    if tokenReply.value.status != 201 {
      return PublishRun(3, [], []);
    }
    var tokenBody := parse(tokenReply.value.text);
    if tokenBody.None? || tokenBody.value.Null? {
      return PublishRun(9, [], []);
    }
    var slug := GitHub.RepoSlugFromUrl(cfg.repoUrl);
    if slug.Err? {
      return PublishRun(9, [], []);
    }
    if reportText.None? || reportText.value == "" {
      return PublishRun(2, [], []);
    }
    var report := parse(reportText.value);
    if report.None? {
      return PublishRun(9, [], []);
    }
    match IssuesOf(report.value)
    case Unreadable =>
      return PublishRun(9, [], []);
    case NothingToPost =>
      return PublishRun(0, [], []);
    case ToPost(items) =>
      var d := Deliver(items, statuses);
      return PublishRun(if d.crashed then 9 else 0, d.posts, d.failed);
  }

  /** Once the loop has run over every issue the exit status is 0 and every issue was
      posted once, whatever the replies said; the failures are the non-201 replies. */
  lemma CompletedDeliveryExitsZero(ps: seq<Option<CommitCommentPayload>>, statuses: seq<int>)
    requires forall k :: 0 <= k < |ps| ==> ps[k].Some?
    requires |statuses| >= |ps|
    ensures var d := Deliveries(ps, statuses, 0);
      && !d.crashed && |d.posts| == |ps|
      && (forall k :: 0 <= k < |ps| ==> ps[k] == Some(d.posts[k]))
      && (forall j :: j in d.failed <==> 0 <= j < |ps| && statuses[j] != 201)
  {
    DeliveryCompletes(ps, statuses, 0);
    DeliveryOrder(ps, statuses, 0);
  }
}

=== FILE: env.dfy ===
/** Configuration lookup over an explicit environment: the map from variable names to
    values that `process.env` holds (a variable that is not set has no entry). */
module Env {
  import opened Wrappers

  /** `required(name)`: the value of a variable that is set to a non-empty string; an
      unset variable or an empty value is an error whose message names the variable. */
  function Required(env: map<string, string>, name: string): (r: Result<string, string>)
    ensures r.Ok? <==> name in env && env[name] != ""
    ensures r.Ok? ==> r.value == env[name] && r.value != ""
    ensures r.Err? ==> r.error == "Missing env: " + name
  {
    if name in env && env[name] != "" then Ok(env[name]) else Err("Missing env: " + name)
  }

  /** `optional(name, def)`: the value of a variable that is set, even to "", and `def`
      (by default "") otherwise. */
  function Optional(env: map<string, string>, name: string, def: string := ""): (v: string)
    ensures name in env ==> v == env[name]
    ensures name !in env ==> v == def
  {
    if name in env then env[name] else def
  }

  /** The two lookups agree wherever `required` succeeds; they differ only on a variable
      set to "", which `required` rejects and `optional` returns. */
  lemma RequiredRefinesOptional(env: map<string, string>, name: string, def: string)
    ensures Required(env, name).Ok? ==> Required(env, name).value == Optional(env, name, def)
    ensures name in env && env[name] == "" ==>
      Required(env, name).Err? && Optional(env, name, def) == ""
    ensures name !in env ==> Required(env, name).Err? && Optional(env, name, def) == def
  {
  }
}

=== FILE: github.dfy ===
/** The GitHub helpers: reading the `OWNER/NAME` slug out of a repository URL, and minting
    the App JSON Web Token. The slug parser is a hand-written matcher for the two anchored,
    case-insensitive patterns the helper tries in turn. For the token, the JSON
    serialisation followed by base64url encoding (section 5 of RFC 4648, without padding)
    is the parameter `segment`, and RSA-SHA256 signing with the PEM key is the parameter
    `sign`, which yields `None` when the key is malformed. */
module GitHub {
  import opened Wrappers
  import opened Json
  import opened Text

  // ---------------------------------------------------------------------------------
  // Repository slug

  /** The pieces of a URL the patterns recognise: the scheme or `git@` prefix, the host,
      the two captured groups and the optional `.git` suffix. */
  datatype SlugMatch = SlugMatch(prefix: string, host: string, owner: string, name: string, suffix: string)

  predicate NoChar(s: string, c: char) {
    forall k :: 0 <= k < |s| ==> s[k] != c
  }

  /** A non-empty run of characters other than `sep`: the pattern `[^sep]+`. */
  predicate IsSegment(s: string, sep: char) {
    s != [] && NoChar(s, sep)
  }

  /** The pattern `[^./\s]+` of the repository name. */
  predicate IsRepoName(s: string) {
    s != [] && forall k :: 0 <= k < |s| ==> s[k] != '.' && s[k] != '/' && !IsJsSpace(s[k])
  }

  predicate IsGitSuffix(s: string) {
    s == "" || CaseInsensitiveEq(s, ".git")
  }

  /** The URL is `http(s)://HOST/OWNER/NAME` with an optional `.git`. */
  predicate IsHttpsMatch(url: string, m: SlugMatch) {
    && (CaseInsensitiveEq(m.prefix, "http://") || CaseInsensitiveEq(m.prefix, "https://"))
    && IsSegment(m.host, '/') && IsSegment(m.owner, '/') && IsRepoName(m.name) && IsGitSuffix(m.suffix)
    && url == m.prefix + m.host + "/" + m.owner + "/" + m.name + m.suffix
  }

  /** The URL is `git@HOST:OWNER/NAME` with an optional `.git`. */
  predicate IsSshMatch(url: string, m: SlugMatch) {
    && CaseInsensitiveEq(m.prefix, "git@")
    && IsSegment(m.host, ':') && IsSegment(m.owner, '/') && IsRepoName(m.name) && IsGitSuffix(m.suffix)
    && url == m.prefix + m.host + ":" + m.owner + "/" + m.name + m.suffix
  }

  /** Splits what follows the owner into the repository name and the optional `.git`. */
  function SplitName(tail: string): (r: Option<(string, string)>)
    ensures r.Some? ==> IsRepoName(r.value.0) && IsGitSuffix(r.value.1) && tail == r.value.0 + r.value.1
  {
    if IsRepoName(tail) then Some((tail, ""))
    else if |tail| > 4 && CaseInsensitiveEq(tail[|tail| - 4..], ".git") && IsRepoName(tail[..|tail| - 4]) then
      assert tail == tail[..|tail| - 4] + tail[|tail| - 4..];
      Some((tail[..|tail| - 4], tail[|tail| - 4..]))
    else None
  }

  lemma SplitNameComplete(name: string, suffix: string)
    requires IsRepoName(name) && IsGitSuffix(suffix)
    ensures SplitName(name + suffix) == Some((name, suffix))
  {
    var tail := name + suffix;
    if suffix == "" {
      assert tail == name;
    } else {
      assert UpperChar(suffix[0]) == '.';
      assert tail[|name|] == suffix[0] == '.';
      assert !IsRepoName(tail);
      assert tail[..|tail| - 4] == name && tail[|tail| - 4..] == suffix;
    }
  }

  /** Splits `rest` at its first `sep`, which must have a non-empty run before it. */
  function SplitAt(rest: string, sep: char): (r: Option<(string, string)>)
    ensures r.Some? ==> IsSegment(r.value.0, sep) && rest == r.value.0 + [sep] + r.value.1
  {
    var i := FindChar(rest, sep);
    if i == 0 || i == |rest| then None
    else
      assert rest == rest[..i] + [sep] + rest[i + 1..];
      Some((rest[..i], rest[i + 1..]))
  }

  lemma SplitAtComplete(a: string, sep: char, b: string)
    requires IsSegment(a, sep)
    ensures SplitAt(a + [sep] + b, sep) == Some((a, b))
  {
    FindCharAfter(a, sep, b);
    var rest := a + [sep] + b;
    assert rest[..|a|] == a && rest[|a| + 1..] == b;
  }

  /** Matches the owner, `/`, the name and the suffix that follow the host. */
  function MatchPath(path: string): (r: Option<(string, string, string)>)
    ensures r.Some? ==> IsSegment(r.value.0, '/') && IsRepoName(r.value.1) && IsGitSuffix(r.value.2)
    ensures r.Some? ==> path == r.value.0 + "/" + r.value.1 + r.value.2
  {
    match SplitAt(path, '/')
    case None => None
    case Some(ot) =>
      match SplitName(ot.1)
      case None => None
      case Some(ns) => Some((ot.0, ns.0, ns.1))
  }

  lemma MatchPathComplete(owner: string, name: string, suffix: string)
    requires IsSegment(owner, '/') && IsRepoName(name) && IsGitSuffix(suffix)
    ensures MatchPath(owner + "/" + name + suffix) == Some((owner, name, suffix))
  {
    assert owner + "/" + name + suffix == owner + ['/'] + (name + suffix);
    SplitAtComplete(owner, '/', name + suffix);
    SplitNameComplete(name, suffix);
  }

  /** The length of the case-insensitive `http://` or `https://` that starts `url`, or 0. */
  function SchemeLength(url: string): (n: nat)
    ensures n <= |url|
    ensures n == 0 || CaseInsensitiveEq(url[..n], "http://") || CaseInsensitiveEq(url[..n], "https://")
  {
    if |url| >= 8 && CaseInsensitiveEq(url[..8], "https://") then 8
    else if |url| >= 7 && CaseInsensitiveEq(url[..7], "http://") then 7
    else 0
  }

  /** The first pattern: `^https?://[^/]+/([^/]+)/([^./\s]+)(?:\.git)?$`, ignoring case. */
  function MatchHttps(url: string): (r: Option<SlugMatch>)
    ensures r.Some? ==> IsHttpsMatch(url, r.value)
  {
    var n := SchemeLength(url);
    if n == 0 then None
    else
      match SplitAt(url[n..], '/')
      case None => None
      case Some(hp) =>
        match MatchPath(hp.1)
        case None => None
        case Some(onx) =>
          Reassemble(url, n, hp.0, '/', hp.1, onx.0, onx.1, onx.2);
          Some(SlugMatch(url[..n], hp.0, onx.0, onx.1, onx.2))
  }

  /** `url` cut at `n`, the rest at its first `sep`, and what follows at its first `/`. */
  lemma Reassemble(url: string, n: nat, host: string, sep: char, path: string,
                   owner: string, name: string, suffix: string)
    requires n <= |url| && url[n..] == host + [sep] + path
    requires path == owner + "/" + name + suffix
    ensures url == url[..n] + host + [sep] + owner + "/" + name + suffix
  {
    assert url == url[..n] + url[n..];
  }

  lemma {:induction false} MatchHttpsComplete(url: string, m: SlugMatch)
    requires IsHttpsMatch(url, m)
    ensures MatchHttps(url) == Some(m)
  {
    var n := |m.prefix|;
    assert url[..n] == m.prefix;
    if n == 7 {
      assert url[4] == m.prefix[4];
      assert UpperChar(m.prefix[4]) == ':';
      assert !CaseInsensitiveEq(url[..8], "https://") by {
        assert UpperChar(url[..8][4]) != UpperChar("https://"[4]);
      }
    }
    assert SchemeLength(url) == n;
    var rest := m.owner + "/" + m.name + m.suffix;
    assert url[n..] == m.host + ['/'] + rest;
    SplitAtComplete(m.host, '/', rest);
    MatchPathComplete(m.owner, m.name, m.suffix);
  }

  /** The second pattern: `^git@[^:]+:([^/]+)/([^./\s]+)(?:\.git)?$`, ignoring case. */
  function MatchSsh(url: string): (r: Option<SlugMatch>)
    ensures r.Some? ==> IsSshMatch(url, r.value)
  {
    if |url| < 4 || !CaseInsensitiveEq(url[..4], "git@") then None
    else
      match SplitAt(url[4..], ':')
      case None => None
      case Some(hp) =>
        match MatchPath(hp.1)
        case None => None
        case Some(onx) =>
          Reassemble(url, 4, hp.0, ':', hp.1, onx.0, onx.1, onx.2);
          Some(SlugMatch(url[..4], hp.0, onx.0, onx.1, onx.2))
  }

  lemma {:induction false} MatchSshComplete(url: string, m: SlugMatch)
    requires IsSshMatch(url, m)
    ensures MatchSsh(url) == Some(m)
  {
    assert url[..4] == m.prefix;
    var rest := m.owner + "/" + m.name + m.suffix;
    assert url[4..] == m.host + [':'] + rest;
    SplitAtComplete(m.host, ':', rest);
    MatchPathComplete(m.owner, m.name, m.suffix);
  }

  /** `repoSlugFromUrl`: `OWNER/NAME` from the first pattern that matches, or the error
      the helper throws. */
  function RepoSlugFromUrl(url: string): (r: Result<string, string>)
    ensures r.Ok? <==> MatchHttps(url).Some? || MatchSsh(url).Some?
    ensures r.Err? ==> r.error == "Cannot parse repo slug: " + url
  {
    match MatchHttps(url)
    case Some(m) => Ok(m.owner + "/" + m.name)
    case None =>
      match MatchSsh(url)
      case Some(m) => Ok(m.owner + "/" + m.name)
      case None => Err("Cannot parse repo slug: " + url)
  }

  /** Every URL of the HTTPS form yields its owner and name. */
  lemma SlugOfHttpsUrl(url: string, m: SlugMatch)
    requires IsHttpsMatch(url, m)
    ensures RepoSlugFromUrl(url) == Ok(m.owner + "/" + m.name)
  {
    MatchHttpsComplete(url, m);
  }

  /** Every URL of the SSH form yields its owner and name. */
  lemma SlugOfSshUrl(url: string, m: SlugMatch)
    requires IsSshMatch(url, m)
    ensures RepoSlugFromUrl(url) == Ok(m.owner + "/" + m.name)
  {
    MatchSshComplete(url, m);
    assert !(|url| >= 7 && CaseInsensitiveEq(url[..7], "http://")) by {
      if |url| >= 7 { assert UpperChar(url[..7][0]) == 'G' != UpperChar("http://"[0]); }
    }
    assert !(|url| >= 8 && CaseInsensitiveEq(url[..8], "https://")) by {
      if |url| >= 8 { assert UpperChar(url[..8][0]) == 'G' != UpperChar("https://"[0]); }
    }
  }

  /** The HTTPS and SSH forms of one repository give the same slug. */
  lemma SameSlugForBothForms(httpsUrl: string, sshUrl: string, m1: SlugMatch, m2: SlugMatch)
    requires IsHttpsMatch(httpsUrl, m1) && IsSshMatch(sshUrl, m2)
    requires m1.owner == m2.owner && m1.name == m2.name
    ensures RepoSlugFromUrl(httpsUrl) == RepoSlugFromUrl(sshUrl) == Ok(m1.owner + "/" + m1.name)
  {
    SlugOfHttpsUrl(httpsUrl, m1);
    SlugOfSshUrl(sshUrl, m2);
  }

  /** A returned slug is a non-empty owner without `/`, one `/`, and a non-empty name
      without `.`, `/` or white space. */
  lemma SlugShape(url: string)
    requires RepoSlugFromUrl(url).Ok?
    ensures var s := RepoSlugFromUrl(url).value; var k := FindChar(s, '/');
      && k < |s| && IsSegment(s[..k], '/') && IsRepoName(s[k + 1..])
  {
    var m := if MatchHttps(url).Some? then MatchHttps(url).value else MatchSsh(url).value;
    var s := m.owner + "/" + m.name;
    assert s == m.owner + ['/'] + m.name;
    FindCharAfter(m.owner, '/', m.name);
    assert s[..|m.owner|] == m.owner && s[|m.owner| + 1..] == m.name;
  }

  /** Every URL either pattern accepts contains a `/` right after the owner, so a string
      without one, such as `not-a-url`, is rejected. */
  lemma AcceptedUrlHasSlash(url: string)
    requires RepoSlugFromUrl(url).Ok?
    ensures !NoChar(url, '/')
  {
    if MatchHttps(url).Some? {
      HttpsMatchHasSlash(url, MatchHttps(url).value);
    } else {
      SshMatchHasSlash(url, MatchSsh(url).value);
    }
  }

  lemma HttpsMatchHasSlash(url: string, m: SlugMatch)
    requires IsHttpsMatch(url, m)
    ensures !NoChar(url, '/')
  {
    var rest := m.owner + "/" + m.name + m.suffix;
    assert url == (m.prefix + m.host) + ['/'] + rest;
    assert url[|m.prefix + m.host|] == '/';
  }

  lemma SshMatchHasSlash(url: string, m: SlugMatch)
    requires IsSshMatch(url, m)
    ensures !NoChar(url, '/')
  {
    var front := m.prefix + m.host + ":" + m.owner;
    assert url == front + ['/'] + (m.name + m.suffix);
    assert url[|front|] == '/';
  }

  /** Every accepted URL ends in the name or in `.git`, so a trailing `/` is rejected. */
  lemma RejectsTrailingSlash(url: string)
    requires url != [] && url[|url| - 1] == '/'
    ensures RepoSlugFromUrl(url).Err?
  {
  }

  /** A name with a `.` that does not start a final `.git` is not accepted. */
  lemma SplitNameRejectsDot(a: string, b: string)
    requires IsRepoName(a) && IsRepoName(b) && !CaseInsensitiveEq(b, "git")
    ensures SplitName(a + "." + b) == None
  {
    var tail := a + "." + b;
    var L := |tail|;
    assert tail[|a|] == '.';
    assert !IsRepoName(tail);
    if L > 4 {
      var last := tail[L - 4..];
      if |b| >= 4 {
        assert tail[..L - 4][|a|] == '.';
      } else if |b| == 3 {
        assert last == "." + b;
        if CaseInsensitiveEq(last, ".git") {
          forall k | 0 <= k < 3 ensures UpperChar(b[k]) == UpperChar("git"[k]) {
            assert last[k + 1] == b[k];
            assert UpperChar(last[k + 1]) == UpperChar(".git"[k + 1]);
          }
        }
      } else {
        assert last[3 - |b|] == '.';
        assert UpperChar(".git"[3 - |b|]) != '.';
      }
    }
  }

  /** A string that starts with `http://` or `https://`, in any case, is cut after it. */
  lemma SchemeLengthOf(prefix: string, rest: string)
    requires CaseInsensitiveEq(prefix, "http://") || CaseInsensitiveEq(prefix, "https://")
    ensures SchemeLength(prefix + rest) == |prefix|
  {
    var url := prefix + rest;
    assert url[..|prefix|] == prefix;
    if |prefix| == 7 && |url| >= 8 {
      assert url[4] == prefix[4];
      assert UpperChar(prefix[4]) == ':';
      assert UpperChar(url[..8][4]) != UpperChar("https://"[4]);
    }
  }

  /** A string that starts with `http` is not of the SSH form. */
  lemma HttpIsNotSsh(prefix: string, rest: string)
    requires CaseInsensitiveEq(prefix, "http://") || CaseInsensitiveEq(prefix, "https://")
    ensures MatchSsh(prefix + rest).None?
  {
    var url := prefix + rest;
    assert url[0] == prefix[0];
    assert UpperChar(url[0]) == 'H';
    if |url| >= 4 {
      assert UpperChar(url[..4][0]) != UpperChar("git@"[0]);
    }
  }

  /** An HTTPS URL whose repository name holds a dot, such as `my.repo`, is rejected. */
  lemma RejectsDottedName(prefix: string, host: string, owner: string, a: string, b: string)
    requires CaseInsensitiveEq(prefix, "http://") || CaseInsensitiveEq(prefix, "https://")
    requires IsSegment(host, '/') && IsSegment(owner, '/')
    requires IsRepoName(a) && IsRepoName(b) && !CaseInsensitiveEq(b, "git")
    ensures RepoSlugFromUrl(prefix + host + "/" + owner + "/" + a + "." + b).Err?
  {
    var path := owner + "/" + (a + "." + b);
    var url := prefix + (host + ['/'] + path);
    assert url == prefix + host + "/" + owner + "/" + a + "." + b;
    SchemeLengthOf(prefix, host + ['/'] + path);
    assert url[|prefix|..] == host + ['/'] + path;
    SplitAtComplete(host, '/', path);
    assert path == owner + ['/'] + (a + "." + b);
    SplitAtComplete(owner, '/', a + "." + b);
    SplitNameRejectsDot(a, b);
    assert MatchHttps(url).None?;
    HttpIsNotSsh(prefix, host + ['/'] + path);
  }

  // ---------------------------------------------------------------------------------
  // App JSON Web Token

  const JWT_HEADER: Json := Obj(map["alg" := Str("RS256"), "typ" := Str("JWT")])

  datatype Claims = Claims(iat: int, exp: int, iss: string)

  /** The claims minted at `now` (whole seconds): issued a minute in the past to allow for
      clock skew, expiring eight minutes ahead, within GitHub's ten-minute maximum. */
  function ClaimsAt(now: int, appId: string): (c: Claims)
    ensures c.iss == appId
    ensures c.iat == now - 60 && c.exp == now + 480
    ensures c.iat < now < c.exp && c.exp - c.iat == 540 && c.exp - now <= 600
  {
    Claims(now - 60, now + 8 * 60, appId)
  }

  function ClaimsJson(c: Claims): Json {
    Obj(map["iat" := Num(c.iat), "exp" := Num(c.exp), "iss" := Str(c.iss)])
  }

  datatype JwtError = KeyUnreadable | KeyRejected

  /** `makeAppJWT`: `header.payload.signature`, the signature taken over exactly
      `header.payload`. `pem` is the key file's contents, `None` when it cannot be read. */
  function MakeAppJWT(appId: string, pem: Option<string>, now: int,
                      segment: Json -> string, sign: (string, string) -> Option<string>): (r: Result<string, JwtError>)
    ensures pem.None? ==> r == Err(KeyUnreadable)
    ensures pem.Some? ==>
      var unsigned := segment(JWT_HEADER) + "." + segment(ClaimsJson(ClaimsAt(now, appId)));
      r == match sign(pem.value, unsigned)
           case None => Err(KeyRejected)
           case Some(sig) => Ok(unsigned + "." + sig)
  {
    if pem.None? then Err(KeyUnreadable)
    else
      var header := segment(JWT_HEADER);
      var payload := segment(ClaimsJson(ClaimsAt(now, appId)));
      var unsigned := header + "." + payload;
      match sign(pem.value, unsigned)
      case None => Err(KeyRejected)
      case Some(signature) => Ok(unsigned + "." + signature)
  }

  /** The URL-safe base64 alphabet of section 5 of RFC 4648; without padding there is
      no `=`. */
  predicate IsBase64Url(s: string) {
    forall k :: 0 <= k < |s| ==>
      'A' <= s[k] <= 'Z' || 'a' <= s[k] <= 'z' || '0' <= s[k] <= '9' || s[k] == '-' || s[k] == '_'
  }

  datatype TokenParts = TokenParts(header: string, payload: string, signature: string)

  /** Cuts `t` at its first `c`: the part before it, which holds no `c`, and the rest. */
  function CutAt(t: string, c: char): (r: Option<(string, string)>)
    ensures r.Some? ==> NoChar(r.value.0, c) && t == r.value.0 + [c] + r.value.1
    ensures r.None? <==> NoChar(t, c)
  {
    var i := FindChar(t, c);
    if i == |t| then None
    else
      assert t == t[..i] + [c] + t[i + 1..];
      Some((t[..i], t[i + 1..]))
  }

  lemma CutAtFirst(a: string, c: char, b: string)
    requires NoChar(a, c)
    ensures CutAt(a + [c] + b, c) == Some((a, b))
  {
    var t := a + [c] + b;
    FindCharAfter(a, c, b);
    assert t[..|a|] == a && t[|a| + 1..] == b;
  }

  /** Reads a compact JSON Web Token back into its three dot-separated parts. */
  function SplitToken(t: string): (r: Option<TokenParts>)
    ensures r.Some? ==> t == r.value.header + "." + r.value.payload + "." + r.value.signature
  {
    match CutAt(t, '.')
    case None => None
    case Some((header, rest)) =>
      match CutAt(rest, '.')
      case None => None
      case Some((payload, signature)) =>
        if !NoChar(signature, '.') then None
        else
          assert t == header + "." + payload + "." + signature;
          Some(TokenParts(header, payload, signature))
  }

  /** The token checks out against `pem`: its signature is the one `sign` gives for its
      first two parts. */
  predicate Verifies(t: string, pem: string, sign: (string, string) -> Option<string>) {
    match SplitToken(t)
    case None => false
    case Some(p) => sign(pem, p.header + "." + p.payload) == Some(p.signature)
  }

  /** Once the encoder and the signer emit base64url text, a minted token splits back into
      the encoded header, the encoded claims and a signature over exactly those two. */
  lemma SplitTokenOfParts(h: string, p: string, s: string)
    requires NoChar(h, '.') && NoChar(p, '.') && NoChar(s, '.')
    ensures SplitToken(h + "." + p + "." + s) == Some(TokenParts(h, p, s))
  {
    var t := h + "." + p + "." + s;
    assert t == h + ['.'] + (p + "." + s);
    CutAtFirst(h, '.', p + "." + s);
    assert p + "." + s == p + ['.'] + s;
    CutAtFirst(p, '.', s);
  }

  lemma {:induction false} MintedTokenVerifies(appId: string, pem: Option<string>, now: int,
                                               segment: Json -> string, sign: (string, string) -> Option<string>)
    requires MakeAppJWT(appId, pem, now, segment, sign).Ok?
    requires IsBase64Url(segment(JWT_HEADER)) && IsBase64Url(segment(ClaimsJson(ClaimsAt(now, appId))))
    requires forall m :: sign(pem.value, m).Some? ==> IsBase64Url(sign(pem.value, m).value)
    ensures var t := MakeAppJWT(appId, pem, now, segment, sign).value;
      && Verifies(t, pem.value, sign)
      && SplitToken(t).value.header == segment(JWT_HEADER)
      && SplitToken(t).value.payload == segment(ClaimsJson(ClaimsAt(now, appId)))
  {
    var h := segment(JWT_HEADER);
    var p := segment(ClaimsJson(ClaimsAt(now, appId)));
    var s := sign(pem.value, h + "." + p).value;
    SplitTokenOfParts(h, p, s);
  }
}

=== FILE: json.dfy ===
/** The values `JSON.parse` produces, and the few JavaScript operations the two scripts apply
    to them: property reads, truthiness and conversion to a string. Numbers are integers. */
module Json {
  import opened Wrappers
  import Text

  datatype Json =
    | Null
    | Bool(b: bool)
    | Num(n: int)
    | Str(s: string)
    | Arr(items: seq<Json>)
    | Obj(fields: map<string, Json>)

  /** Reading property `key` of a value other than `null`; `None` is `undefined`. The
      named keys the scripts read yield `undefined` on numbers, booleans, strings and
      arrays. The one inherited property they use, `length`, is read on an `issues` value
      only; arrays and strings have their own cases there, and on objects it is an own key. */
  function Get(v: Json, key: string): (r: Option<Json>)
    ensures r.Some? <==> v.Obj? && key in v.fields
    ensures r.Some? ==> r.value == v.fields[key]
  {
    if v.Obj? && key in v.fields then Some(v.fields[key]) else None
  }

  /** JavaScript truthiness of a value that may be `undefined`: `undefined`, `null`,
      `false`, `0` and `""` are falsy; arrays and objects, even empty ones, are truthy. */
  predicate Truthy(o: Option<Json>) {
    && o.Some? && !o.value.Null?
    && (o.value.Bool? ==> o.value.b)
    && (o.value.Num? ==> o.value.n != 0)
    && (o.value.Str? ==> o.value.s != "")
  }

  /** `String(v)`, also what a template literal interpolates: arrays are joined with ","
      after turning `null` elements into "", objects become "[object Object]". */
  function ToStr(v: Json): string
    decreases v
  {
    match v
    case Null => "null"
    case Bool(b) => if b then "true" else "false"
    case Num(n) => Text.Decimal(n)
    case Str(s) => s
    case Arr(items) => Text.JoinComma(ItemStrs(items))
    case Obj(_) => "[object Object]"
  }

  /** The element texts an array joins: `null` elements become "". */
  function ItemStrs(items: seq<Json>): (r: seq<string>)
    ensures |r| == |items|
    decreases items
  {
    if items == [] then []
    else [if items[0].Null? then "" else ToStr(items[0])] + ItemStrs(items[1..])
  }
}

=== FILE: pipeline.dfy ===
/** How the two scripts fit together: what the publisher does with the report files the
    generator writes, and with a well-typed report in general. */
module Pipeline {
  import opened Wrappers
  import opened Json
  import opened Report
  import Text
  import Comment
  import Review

  lemma {:induction false} IssuesJsonAt(issues: seq<Issue>, k: nat)
    requires k < |issues|
    ensures IssuesJson(issues)[k] == IssueJson(issues[k])
  {
    if k > 0 {
      IssuesJsonAt(issues[1..], k - 1);
    }
  }

  /** A well-typed finding always yields a payload. It is inline exactly when its file
      keeps a non-empty name once a leading `./` is dropped and its line is positive, and
      its body opens with the severity label in capitals. */
  lemma WellTypedIssuePrepares(i: Issue)
    ensures Comment.Prepare(IssueJson(i)).Some?
    ensures Comment.Prepare(IssueJson(i)).value.Inline? <==> Comment.NormPath(i.file) != "" && i.line > 0
    ensures Comment.Prepare(IssueJson(i)).value.Inline? ==>
      Comment.Prepare(IssueJson(i)).value.path == Comment.NormPath(i.file) &&
      Comment.Prepare(IssueJson(i)).value.position == i.line
    ensures var body := Comment.Prepare(IssueJson(i)).value.body;
      var head := "**Severity:** " + Text.AsciiUpper(i.severity.Label()) + "\n\n";
      |head| <= |body| && body[..|head|] == head
  {
    var elem := IssueJson(i);
    var v := Comment.ViewOf(elem).value;
    assert v.severity == Some(Str(i.severity.Label()));
    Comment.PayloadChoice(elem);
    Comment.SeverityOpensBody(v);
  }

  /** The publisher reads a well-typed report's findings in order; an empty list means
      nothing to post. */
  lemma WellTypedReportReads(r: ReviewReport)
    ensures r.issues == [] ==> Comment.IssuesOf(ReportJson(r)) == Comment.NothingToPost
    ensures r.issues != [] ==> Comment.IssuesOf(ReportJson(r)) == Comment.ToPost(IssuesJson(r.issues))
  {
    assert Get(ReportJson(r), "issues") == Some(Arr(IssuesJson(r.issues)));
  }

  /** With a reply for every request, a well-typed report is delivered in full: one
      comment per finding, in order, and the failures are the replies other than 201. */
  lemma WellTypedReportDelivers(r: ReviewReport, statuses: seq<int>)
    requires |statuses| >= |r.issues|
    ensures var d := Comment.Deliveries(Comment.Prepared(IssuesJson(r.issues)), statuses, 0);
      && !d.crashed && |d.posts| == |r.issues|
      && (forall k :: 0 <= k < |r.issues| ==> Some(d.posts[k]) == Comment.Prepare(IssueJson(r.issues[k])))
      && (forall j :: j in d.failed <==> 0 <= j < |r.issues| && statuses[j] != 201)
  {
    var items := IssuesJson(r.issues);
    var ps := Comment.Prepared(items);
    forall k | 0 <= k < |ps| ensures ps[k] == Comment.Prepare(IssueJson(r.issues[k])) && ps[k].Some? {
      Comment.PreparedAt(items, k);
      IssuesJsonAt(r.issues, k);
      WellTypedIssuePrepares(r.issues[k]);
    }
    Comment.CompletedDeliveryExitsZero(ps, statuses);
  }

  /** Whatever object the model returned, the report the generator writes never makes the
      publisher fail before its loop: its `issues` is always an array. */
  lemma NormalizedReportIsReadable(fields: map<string, Json>, commit: string)
    ensures Comment.IssuesOf(Obj(Review.Normalized(fields, commit))) != Comment.Unreadable
    ensures Comment.IssuesOf(Obj(Review.Normalized(fields, commit))).ToPost? <==>
      "issues" in fields && fields["issues"].Arr? && fields["issues"].items != []
  {
  }

  /** The report written for a blank diff has nothing to post. */
  lemma EmptyReportPostsNothing(commit: string)
    ensures Comment.IssuesOf(Review.EmptyReport(commit)) == Comment.NothingToPost
  {
  }

  /** A report that is a bare array, which the generator writes unchanged, has no
      `issues` property: the publisher posts nothing for it. */
  lemma ArrayReportPostsNothing(items: seq<Json>)
    ensures Comment.IssuesOf(Arr(items)) == Comment.NothingToPost
  {
  }
}

=== FILE: report.dfy ===
/** The shapes the two scripts exchange: a review finding (`Issue`), the report file
    (`ReviewReport`) and the body of a commit-comment request (`CommitCommentPayload`),
    with the JSON form a well-typed report takes on disk. */
module Report {
  import opened Wrappers
  import opened Json

  datatype Severity = Low | Medium | High | Critical {
    /** The label the report schema uses for the severity. */
    function Label(): (s: string)
      ensures s in {"low", "medium", "high", "critical"}
    {
      match this
      case Low => "low"
      case Medium => "medium"
      case High => "high"
      case Critical => "critical"
    }
  }

  /** One finding. An absent `recommendation` is left out of the JSON form; an absent
      `code_suggestion` is written as `null`, as the schema allows. */
  datatype Issue = Issue(
    severity: Severity,
    file: string,
    line: int,
    issue: string,
    recommendation: Option<string>,
    codeSuggestion: Option<string>)

  datatype ReviewReport = ReviewReport(commit: string, issues: seq<Issue>)

  /** A commit-level comment carries only a body; an inline one also names a file and a
      position in it. */
  datatype CommitCommentPayload =
    | CommitLevel(body: string)
    | Inline(body: string, path: string, position: int)

  function IssueJson(i: Issue): (j: Json)
    ensures j.Obj?
    ensures Get(j, "severity") == Some(Str(i.severity.Label()))
    ensures Get(j, "file") == Some(Str(i.file)) && Get(j, "line") == Some(Num(i.line))
    ensures Get(j, "issue") == Some(Str(i.issue))
    ensures Get(j, "recommendation") == if i.recommendation.Some? then Some(Str(i.recommendation.value)) else None
    ensures Get(j, "code_suggestion") == Some(if i.codeSuggestion.Some? then Str(i.codeSuggestion.value) else Null)
  {
    var base := map[
      "severity" := Str(i.severity.Label()),
      "file" := Str(i.file),
      "line" := Num(i.line),
      "issue" := Str(i.issue),
      "code_suggestion" := if i.codeSuggestion.Some? then Str(i.codeSuggestion.value) else Null];
    Obj(if i.recommendation.Some? then base["recommendation" := Str(i.recommendation.value)] else base)
  }

  /** The JSON form of a list of findings, element by element. */
  function IssuesJson(issues: seq<Issue>): (js: seq<Json>)
    ensures |js| == |issues|
  {
    if issues == [] then [] else [IssueJson(issues[0])] + IssuesJson(issues[1..])
  }

  /** The JSON form of a well-typed report: its commit and its findings. */
  function ReportJson(r: ReviewReport): Json {
    Obj(map["commit" := Str(r.commit), "issues" := Arr(IssuesJson(r.issues))])
  }

  /** What a request returns: the HTTP status and the response text. */
  datatype Response = Response(status: int, text: string)
}

=== FILE: review.dfy ===
/** The review generator: reads the diff, asks the chat-completions API for a review in a
    fixed JSON shape and writes the report file. Reading the diff yields `None` when the
    file cannot be read; the API call yields `None` when the request rejects (network
    failure or the two-minute abort); `writeFails` says whether writing the report
    throws; `parse` is `JSON.parse`, `None` where it throws. */
module Review {
  import opened Wrappers
  import opened Json
  import opened Report
  import Text
  import Env

  // ---------------------------------------------------------------------------------
  // Configuration and the request

  const DEFAULT_API_URL: string := "https://api.deepseek.com/v1/chat/completions"
  const DEFAULT_MODEL: string := "deepseek-chat"
  const DEFAULT_OUT: string := "ai-report.json"
  /** Two minutes, in milliseconds. */
  const TIMEOUT_MS: int := 2 * 60 * 1000

  /** The shape the model is told to answer in. */
  const REPORT_SCHEME: string :=
    "{\"commit\":string,\"issues\":[{\"severity\":\"low|medium|high|critical\",\"file\":\"path.php\",\"line\":123,\"issue\":\"title\",\"recommendation\":\"text\",\"code_suggestion\":string|null\"}]}"

  /** The system prompt: five lines, the last four indented by two spaces, ending with
      the report shape. */
  const SYSTEM_PROMPT: string :=
    "You are a Moodle code reviewer with expert knowledge of PHP, JavaScript, and Moodle\U{2019}s architecture.\n"
    + "  Follow Moodle\U{2019}s coding, security, and accessibility guidelines.\n"
    + "  Focus on correctness, maintainability, and security.\n"
    + "  Identify code performance, missing capability checks, input validation flaws, and SQL or permission risks.\n"
    + "  Return JSON only using: " + REPORT_SCHEME

  /** The settings the generator reads at start-up; every one has a default. */
  datatype ReviewConfig = ReviewConfig(apiUrl: string, model: string, out: string, key: string, commit: string)

  function ConfigFrom(env: map<string, string>): (c: ReviewConfig)
    ensures "API_URL" !in env ==> c.apiUrl == DEFAULT_API_URL
    ensures "MODEL_NAME" !in env ==> c.model == DEFAULT_MODEL
    ensures "OUT_JSON" !in env ==> c.out == DEFAULT_OUT
    ensures "DEEPSEEK_API_KEY" !in env ==> c.key == ""
    ensures "TARGET_COMMIT" !in env ==> c.commit == ""
    ensures "API_URL" in env ==> c.apiUrl == env["API_URL"]
    ensures "MODEL_NAME" in env ==> c.model == env["MODEL_NAME"]
    ensures "OUT_JSON" in env ==> c.out == env["OUT_JSON"]
    ensures "DEEPSEEK_API_KEY" in env ==> c.key == env["DEEPSEEK_API_KEY"]
    ensures "TARGET_COMMIT" in env ==> c.commit == env["TARGET_COMMIT"]
  {
    ReviewConfig(
      Env.Optional(env, "API_URL", DEFAULT_API_URL),
      Env.Optional(env, "MODEL_NAME", DEFAULT_MODEL),
      Env.Optional(env, "OUT_JSON", DEFAULT_OUT),
      Env.Optional(env, "DEEPSEEK_API_KEY"),
      Env.Optional(env, "TARGET_COMMIT"))
  }

  datatype Message = Message(role: string, content: string)

  /** The POST the generator sends: where, the bearer credential, the abort delay and the
      JSON body (model, messages, `response_format` and temperature). */
  datatype ChatRequest = ChatRequest(
    url: string,
    authorization: string,
    timeoutMs: int,
    model: string,
    messages: seq<Message>,
    responseFormat: string,
    temperature: int)

  /** The request for a diff: sent to the configured endpoint and model, aborted after two
      minutes, asking for a JSON object at temperature 0. */
  function RequestFor(cfg: ReviewConfig, diff: string): (q: ChatRequest)
    ensures q.url == cfg.apiUrl && q.model == cfg.model
    ensures q.timeoutMs == 120000
    ensures q.responseFormat == "json_object" && q.temperature == 0
    ensures |q.messages| == 2
  {
    ChatRequest(cfg.apiUrl, "Bearer " + cfg.key, TIMEOUT_MS, cfg.model,
      [Message("system", SYSTEM_PROMPT), Message("user", "Commit: " + cfg.commit + " Diff: " + diff)],
      "json_object", 0)
  }

  /** The request carries the system prompt, then one user message naming the commit and
      ending with the diff, and the key as a bearer credential. */
  lemma RequestCarriesDiff(cfg: ReviewConfig, diff: string)
    ensures var q := RequestFor(cfg, diff);
      && q.messages[0] == Message("system", SYSTEM_PROMPT)
      && q.messages[1] == Message("user", "Commit: " + cfg.commit + " Diff: " + diff)
      && |diff| <= |q.messages[1].content|
      && q.messages[1].content[|q.messages[1].content| - |diff|..] == diff
      && q.authorization == "Bearer " + cfg.key
      && q.authorization[7..] == cfg.key
  {
    var u := "Commit: " + cfg.commit + " Diff: ";
    assert (u + diff)[|u + diff| - |diff|..] == diff;
    assert ("Bearer " + cfg.key)[7..] == cfg.key;
  }

  /** The system prompt ends with the report shape. */
  lemma PromptEndsWithScheme()
    ensures |REPORT_SCHEME| <= |SYSTEM_PROMPT|
    ensures SYSTEM_PROMPT[|SYSTEM_PROMPT| - |REPORT_SCHEME|..] == REPORT_SCHEME
  {
    var head := SYSTEM_PROMPT[..|SYSTEM_PROMPT| - |REPORT_SCHEME|];
    assert SYSTEM_PROMPT == head + REPORT_SCHEME;
  }

  // ---------------------------------------------------------------------------------
  // Reading the reply

  /** `x?.[0]`: the first element of an array, the property "0" of an object. A string's
      first character is also reachable, but no property read after it finds anything, so
      it is left as `undefined` here. */
  function First(x: Json): (r: Option<Json>)
    ensures x.Arr? && x.items != [] ==> r == Some(x.items[0])
    ensures !x.Arr? && !x.Obj? ==> r.None?
  {
    match x
    case Arr(items) => if items == [] then None else Some(items[0])
    case Obj(_) => Get(x, "0")
    case _ => None
  }

  /** `parsed?.choices?.[0]`: the first choice of the envelope, if there is one. */
  function FirstChoice(parsed: Json): Option<Json> {
    match Get(parsed, "choices")
    case None => None
    case Some(choices) => First(choices)
  }

  /** `parsed?.choices?.[0]?.message?.content ?? ""`: the text the report is parsed
      from, `String()` of the content when it is there and neither `null` nor missing.
      Wherever the chain breaks (no `choices`, `null` or empty `choices`, a first choice
      without `message`, a message without `content`, or a `null` content) it is "". */
  function ContentText(parsed: Json): (r: string)
    ensures !parsed.Obj? ==> r == ""
    ensures Get(parsed, "choices").None? || Get(parsed, "choices") == Some(Null) ==> r == ""
    ensures Get(parsed, "choices") == Some(Arr([])) ==> r == ""
    ensures FirstChoice(parsed).None? ==> r == ""
    ensures FirstChoice(parsed).Some? && Get(FirstChoice(parsed).value, "message").None? ==> r == ""
    ensures FirstChoice(parsed).Some? && Get(FirstChoice(parsed).value, "message").Some? ==>
      var content := Get(Get(FirstChoice(parsed).value, "message").value, "content");
      content.None? || content == Some(Null) ==> r == ""
  {
    var content :=
      match FirstChoice(parsed)
      case None => None
      case Some(choice) =>
        match Get(choice, "message")
        case None => None
        case Some(message) => Get(message, "content");
    if content.None? || content.value.Null? then "" else ToStr(content.value)
  }

  /** A chat-completions envelope whose first choice holds a non-null content yields that
      content as `String()` gives it, and a string content as it is. */
  lemma ContentOfFirstChoice(parsed: Json, choice: Json, message: Json, content: Json)
    requires Get(parsed, "choices").Some? && First(Get(parsed, "choices").value) == Some(choice)
    requires Get(choice, "message") == Some(message) && Get(message, "content") == Some(content)
    requires !content.Null?
    ensures ContentText(parsed) == ToStr(content)
    ensures content.Str? ==> ContentText(parsed) == content.s
    ensures content.Num? ==> ContentText(parsed) == Text.Decimal(content.n)
    ensures content.Obj? ==> ContentText(parsed) == "[object Object]"
  {
  }

  /** The report the reply holds: the envelope parses and its content parses. An envelope
      without `choices` leaves "" to parse. */
  function Decoded(text: string, parse: string -> Option<Json>): (r: Option<Json>)
    ensures parse(text).None? ==> r.None?
    ensures r.Some? ==> parse(text).Some?
    ensures parse(text).Some? && ContentText(parse(text).value) == "" ==> r == parse("")
  {
    match parse(text)
    case None => None
    case Some(parsed) => parse(ContentText(parsed))
  }

  /** `JSON.parse("")` throws, so a 2xx reply whose envelope holds no content (the chain
      to `choices[0].message.content` breaks, or ends in `null` or "") is never answered:
      the run exits 5 as for invalid JSON. */
  lemma EmptyContentIsInvalidJson(reply: Response, parse: string -> Option<Json>)
    requires parse("").None?
    requires parse(reply.text).Some? && ContentText(parse(reply.text).value) == ""
    ensures Decoded(reply.text, parse).None?
    ensures !Answered(Some(reply), parse)
  {
  }

  // ---------------------------------------------------------------------------------
  // Normalising the report

  /** What the generator does to an object report before writing it: an `issues` that is
      not an array becomes `[]`, and `commit` is set to the configured commit. */
  function Normalized(fields: map<string, Json>, commit: string): (m: map<string, Json>)
    ensures m.Keys == fields.Keys + {"issues", "commit"}
    ensures m["commit"] == Str(commit)
    ensures m["issues"].Arr?
    ensures "issues" in fields && fields["issues"].Arr? ==> m["issues"] == fields["issues"]
    ensures forall k :: k in fields && k != "issues" && k != "commit" ==> m[k] == fields[k]
  {
    var withIssues := if "issues" in fields && fields["issues"].Arr? then fields else fields["issues" := Arr([])];
    withIssues["commit" := Str(commit)]
  }

  /** Normalising twice changes nothing more. */
  lemma NormalizedIdempotent(fields: map<string, Json>, commit: string)
    ensures Normalized(Normalized(fields, commit), commit) == Normalized(fields, commit)
  {
    var m := Normalized(fields, commit);
    var mm := Normalized(m, commit);
    assert mm.Keys == m.Keys;
    forall k | k in m ensures mm[k] == m[k] {
    }
  }

  /** The issues the model returned survive normalisation exactly when they form an
      array; the commit it claimed never does, unless it already was the configured one. */
  lemma NormalizedKeepsIssuesIff(fields: map<string, Json>, commit: string)
    ensures Normalized(fields, commit)["issues"] == (if "issues" in fields && fields["issues"].Arr? then fields["issues"] else Arr([]))
    ensures "commit" in fields ==> (Normalized(fields, commit)["commit"] == fields["commit"] <==> fields["commit"] == Str(commit))
  {
  }

  /** The report written when the diff is blank. */
  function EmptyReport(commit: string): (j: Json)
    ensures j.Obj? && j.fields == Normalized(map[], commit)
  {
    Obj(map["commit" := Str(commit), "issues" := Arr([])])
  }

  // ---------------------------------------------------------------------------------
  // The run

  /** The exit status, the request sent (if any) and the report written (if any). */
  datatype ReviewRun = ReviewRun(exit: int, request: Option<ChatRequest>, written: Option<Json>)

  /** The diff was read and holds something besides white space. */
  predicate HasDiff(diffRaw: Option<string>) {
    diffRaw.Some? && Text.Trim(diffRaw.value) != ""
  }

  /** The API answered with a 2xx status and a report that parses. */
  predicate Answered(reply: Option<Response>, parse: string -> Option<Json>) {
    && reply.Some? && 200 <= reply.value.status < 300
    && Decoded(reply.value.text, parse).Some?
  }

  method RunReview(cfg: ReviewConfig, diffRaw: Option<string>, reply: Option<Response>,
                   parse: string -> Option<Json>, writeFails: bool) returns (run: ReviewRun)
    ensures run.exit in {0, 1, 2, 3, 5, 6, 7, 9}
    ensures run.written.Some? <==> run.exit == 0
    ensures diffRaw.None? || diffRaw.value == "" ==> run == ReviewRun(2, None, None)
    ensures diffRaw.Some? && diffRaw.value != "" && !HasDiff(diffRaw) ==>
      run == (if writeFails then ReviewRun(1, None, None) else ReviewRun(0, None, Some(EmptyReport(cfg.commit))))
    ensures HasDiff(diffRaw) && cfg.key == "" ==> run == ReviewRun(3, None, None)
    ensures run.request.Some? <==> HasDiff(diffRaw) && cfg.key != ""
    ensures run.request.Some? ==> run.request.value == RequestFor(cfg, Text.Trim(diffRaw.value))
    ensures run.request.Some? ==>
      && (reply.None? ==> run.exit == 9)
      && (reply.Some? && !(200 <= reply.value.status < 300) ==> run.exit == 7)
      && (reply.Some? && 200 <= reply.value.status < 300 && Decoded(reply.value.text, parse).None? ==> run.exit == 5)
    ensures run.request.Some? && Answered(reply, parse) ==>
      match Decoded(reply.value.text, parse).value
      case Obj(fields) =>
        run.written == (if writeFails then None else Some(Obj(Normalized(fields, cfg.commit))))
        && run.exit == (if writeFails then 9 else 0)
      case Arr(_) =>
        run.written == (if writeFails then None else Decoded(reply.value.text, parse))
        && run.exit == (if writeFails then 9 else 0)
      case other => run.exit == (if Truthy(Some(other)) then 9 else 6)
  {
    if diffRaw.None? || diffRaw.value == "" {
      return ReviewRun(2, None, None);
    }
    var diff := Text.Trim(diffRaw.value);
    if diff == "" {
      if writeFails {
        return ReviewRun(1, None, None);
      }
      return ReviewRun(0, None, Some(EmptyReport(cfg.commit)));
    }
    if cfg.key == "" {
      return ReviewRun(3, None, None);
    }
    var request := RequestFor(cfg, diff);
    if reply.None? {
      return ReviewRun(9, Some(request), None);
    }
    if reply.value.status < 200 || reply.value.status >= 300 {
      return ReviewRun(7, Some(request), None);
    }
    var parsed := parse(reply.value.text);
    if parsed.None? {
      return ReviewRun(5, Some(request), None);
    }
    var report := parse(ContentText(parsed.value));
    if report.None? {
      return ReviewRun(5, Some(request), None);
    }
    if !Truthy(report) {
      return ReviewRun(6, Some(request), None);
    }
    match report.value {
      case Obj(fields) =>
        var m := fields;
        if !("issues" in m && m["issues"].Arr?) {
          m := m["issues" := Arr([])];
        }
        m := m["commit" := Str(cfg.commit)];
        if writeFails {
          return ReviewRun(9, Some(request), None);
        }
        return ReviewRun(0, Some(request), Some(Obj(m)));
      case Arr(_) =>
        if writeFails {
          return ReviewRun(9, Some(request), None);
        }
        return ReviewRun(0, Some(request), report);
      case _ =>
        return ReviewRun(9, Some(request), None);
    }
  }
}

=== FILE: text.dfy ===
/** Character and string primitives of the JavaScript runtime that the model relies on:
    the white-space class shared by `String.prototype.trim` and the regular-expression
    escape `\s`, ASCII case mapping, searching for a character, and joining. */
module Text {

  /** JavaScript's WhiteSpace and LineTerminator code points: TAB, VT, FF, SP, NBSP,
      ZWNBSP, the other space separators of category Zs, LF, CR, LS and PS. */
  predicate IsJsSpace(c: char) {
    || c == '\t' || c == '\n' || c == '\U{B}' || c == '\U{C}' || c == '\r' || c == ' '
    || c == '\U{A0}' || c == '\U{1680}' || ('\U{2000}' <= c <= '\U{200A}')
    || c == '\U{2028}' || c == '\U{2029}' || c == '\U{202F}' || c == '\U{205F}'
    || c == '\U{3000}' || c == '\U{FEFF}'
  }

  predicate AllSpace(s: string) {
    forall k :: 0 <= k < |s| ==> IsJsSpace(s[k])
  }

  /** The index of the first non-white-space character of `s` at or after `lo`, or `|s|`. */
  function SkipSpaces(s: string, lo: nat): (i: nat)
    requires lo <= |s|
    ensures lo <= i <= |s|
    ensures forall k :: lo <= k < i ==> IsJsSpace(s[k])
    ensures i < |s| ==> !IsJsSpace(s[i])
    decreases |s| - lo
  {
    if lo < |s| && IsJsSpace(s[lo]) then SkipSpaces(s, lo + 1) else lo
  }

  /** The end of `s[lo..hi]` once its trailing white space is dropped. */
  function SkipSpacesBack(s: string, lo: nat, hi: nat): (j: nat)
    requires lo <= hi <= |s|
    ensures lo <= j <= hi
    ensures forall k :: j <= k < hi ==> IsJsSpace(s[k])
    ensures j > lo ==> !IsJsSpace(s[j - 1])
    decreases hi
  {
    if lo < hi && IsJsSpace(s[hi - 1]) then SkipSpacesBack(s, lo, hi - 1) else hi
  }

  /** `String.prototype.trim`: the slice of `s` left once the white space at both ends is
      dropped; it neither starts nor ends with white space, and it is empty exactly when
      `s` is all white space. */
  function Trim(s: string): (r: string)
    ensures var i := SkipSpaces(s, 0);
      && i + |r| <= |s| && r == s[i..i + |r|]
      && (forall k :: 0 <= k < i ==> IsJsSpace(s[k]))
      && (forall k :: i + |r| <= k < |s| ==> IsJsSpace(s[k]))
    ensures r != [] ==> !IsJsSpace(r[0]) && !IsJsSpace(r[|r| - 1])
    ensures r == [] <==> AllSpace(s)
  {
    var i := SkipSpaces(s, 0);
    var j := SkipSpacesBack(s, i, |s|);
    assert i < j ==> s[i..j][0] == s[i];
    s[i..j]
  }

  /** The upper-case form of an ASCII letter; every other character is unchanged. */
  function UpperChar(c: char): (u: char)
    ensures 'a' <= c <= 'z' ==> 'A' <= u <= 'Z' && u as int == c as int - 32
    ensures !('a' <= c <= 'z') ==> u == c
  {
    if 'a' <= c <= 'z' then (c as int - 32) as char else c
  }

  /** `String.prototype.toUpperCase` restricted to ASCII letters. */
  function AsciiUpper(s: string): (r: string)
    ensures |r| == |s|
    ensures forall k :: 0 <= k < |r| ==> !('a' <= r[k] <= 'z')
    ensures forall k :: 0 <= k < |s| && !('a' <= s[k] <= 'z') ==> r[k] == s[k]
    ensures forall k :: 0 <= k < |s| && 'a' <= s[k] <= 'z' ==> r[k] as int == s[k] as int - 32
  {
    if s == [] then [] else [UpperChar(s[0])] + AsciiUpper(s[1..])
  }

  /** ASCII case-insensitive equality, as a non-Unicode regular expression with the `i`
      flag compares literal characters. */
  predicate CaseInsensitiveEq(a: string, b: string) {
    |a| == |b| && forall k :: 0 <= k < |a| ==> UpperChar(a[k]) == UpperChar(b[k])
  }

  /** The index of the first `c` in `s`, or `|s|` when there is none. */
  function FindChar(s: string, c: char): (i: nat)
    ensures i <= |s|
    ensures forall k :: 0 <= k < i ==> s[k] != c
    ensures i < |s| ==> s[i] == c
  {
    if s == [] then 0
    else if s[0] == c then 0
    else 1 + FindChar(s[1..], c)
  }

  /** Searching a concatenation finds the separator right after a prefix free of it. */
  lemma {:induction false} FindCharAfter(a: string, c: char, b: string)
    requires forall k :: 0 <= k < |a| ==> a[k] != c
    ensures FindChar(a + [c] + b, c) == |a|
  {
    if a != [] {
      assert (a + [c] + b)[1..] == a[1..] + [c] + b;
      FindCharAfter(a[1..], c, b);
    }
  }

  /** `Array.prototype.join("")`. */
  function Concat(parts: seq<string>): (r: string)
    ensures r == [] <==> forall k :: 0 <= k < |parts| ==> parts[k] == []
  {
    if parts == [] then "" else parts[0] + Concat(parts[1..])
  }

  /** `Array.prototype.join(",")`. */
  function JoinComma(parts: seq<string>): string {
    if parts == [] then ""
    else if |parts| == 1 then parts[0]
    else parts[0] + "," + JoinComma(parts[1..])
  }

  function DigitChar(d: nat): char
    requires d < 10
  {
    "0123456789"[d]
  }

  /** The decimal numeral of a natural number. */
  function Digits(n: nat): (r: string)
    ensures r != []
    decreases n
  {
    if n < 10 then [DigitChar(n)] else Digits(n / 10) + [DigitChar(n % 10)]
  }

  /** `Number.prototype.toString()` for an integral value. */
  function Decimal(n: int): string {
    if n < 0 then "-" + Digits(-n) else Digits(n)
  }
}

=== FILE: wrappers.dfy ===
/** Option and Result, used for JavaScript's `undefined`, for values a call may fail to
    produce, and for thrown errors. */
module Wrappers {

  datatype Option<+T> = None | Some(value: T)

  datatype Result<+T, +E> = Ok(value: T) | Err(error: E)
}
